=== FILE: README.md ===
# Weather bot preferences and conversation model

This project is a Dafny model of the logic inside a Telegram weather bot ("Bicho_Bot del
Clima"). It covers the parts that decide what the bot remembers and what it does next:

- **The user's preference record** (`UserPreferences`). It has seven fields with defaults. It is
  serialised by `to_dict` and read back by `from_dict`, and the notification time travels as
  `"HH:MM"` text.
- **The preference store** (`Storage`). This is a map from `str(user_id)` to serialised records.
  It supports get, save (overwrite) and delete, and it starts empty when the file is missing or
  unreadable.
- **The conversation state machine** of `weather_bot.py`:
  - `/start` creates a default record.
  - `button_handler` acts on callback data.
  - `handle_message` answers free text according to three awaited-input flags in
    `context.user_data`: location, time and temperature limits.
  - `request_location` raises the location flag.
  - `set_daily_notification` keeps one job per user under `daily_<user_id>`.
  - `send_daily_notification` checks its gate before sending anything.
  - `translate_condition` is a table lookup.

The modules follow the program's structure:

| module | file | models |
|---|---|---|
| `Common` | common.dfy | `Option`, `Result` (a raised exception is an `Err`) |
| `Text` | text.dfy | the Python string built-ins the code relies on: `str(int)`, `str.split(sep)`, `str.split()`, `str.strip()`, `startswith`, and the decimal forms of `int()` / `float()` |
| `TimeOfDay` | time_of_day.dfy | `datetime.time` as hour/minute, `strftime("%H:%M")`, and `map(int, s.split(":"))` followed by `time(h, m)` |
| `UserPreferences` | user_preferences.dfy | the record, its JSON shape, `to_dict`, `from_dict` |
| `Storage` | storage.dfy | `Storage` |
| `Scheduler` | scheduler.dfy | the job registry and the fire-time gate |
| `Session` | session.dfy | `context.user_data` as a map from flag to boolean |
| `Conditions` | conditions.dfy | the `translate_condition` table, with its 61 entries in source order |
| `WeatherBot` | weather_bot.dfy | the handlers as one `Step(state, event)` function |
| `Invariant` | invariant.dfy | what holds in every reachable state |
| `BotProperties` | bot_properties.dfy | what each handler promises |

A state is the store, the job map and every user's session. An event is `/start`, a button
press with its callback data, or a text message. A text message carries the weather service's
verdict on the text as a location, as a boolean input. Replies are an enumeration of the
screens the bot shows.

The button lemmas hold for any callback data that selects their action
(`ParseAction(data) == …`). The menu lemmas link the keyboards' literal callback strings to
those actions, one string per `Selects…` lemma.

In these places the code behaves in ways that are easy to miss; the model follows the code:

- **`disable_alerts`** clears the thresholds and the daily-summary flag. It does not cancel
  the scheduled job. The job stays registered, and the fire-time gate stops it from sending
  (`BotProperties.DisableAlertsClears`).
- **`from_dict`** raises on a time string that does not parse; it does not fall back to no
  time. A stored record with such a time makes every handler of that user that reads the
  record stop with the error handler's apology before changing anything
  (`BotProperties.UnreadableRecordChangesNothing`). A text message from a user with an empty
  session is the exception: it gets the menu prompt without reading the record
  (weather_bot.py:200-205). The same holds for a record whose field has the wrong type.
- **An empty string as the time** is falsy, so `from_dict` passes it to the model, whose
  validation rejects it. It is also an error.
- **Valid limits from a user without a record.** The limits answer is not saved, and the
  confirmation reads `preferences.temperature_unit` on `None`. That raises, so the user gets the
  apology.
- **Location and time answers from a user without a record** reply with success but save
  nothing and schedule nothing.
- **Records are created only by `/start`.** A user who presses buttons or sends text
  without ever sending `/start` has no record.
- **A job is scheduled whether or not the daily summary is on.** Only the fire-time gate
  looks at the flag (`BotProperties.TimeMessageKeepsGate`).
- **`remove_job` on an absent id.** Its behaviour is the scheduler library's, so it is a
  parameter, `Library.removeAbsentRaises`. When it raises, the new time is already saved, no
  job is added, the flag is still cleared by `finally`, and the user gets the apology.
  APScheduler's `remove_job` raises `JobLookupError` for an id it does not hold. With that
  behaviour no first job is ever created (see "## Findings").
- **The session map.** A session that has never been written is empty and gets the
  "use the menu" prompt. A session whose flags were all written and are all off gets no reply
  at all.

## Model

| member | source | states |
|---|---|---|
| UserPreferences.ToDict | models/user_preferences.py:14-24 | exactly the seven keys; a missing time becomes null and a time becomes five characters `HH:MM` of two-digit hour and minute; every other field is copied verbatim |
| UserPreferences.FromDict | models/user_preferences.py:5-32 | reading succeeds exactly when the user id is an integer, every other declared key is absent or of its field's shape, and a time text parses; on success each field is the stored value when present and its declared default (`es`, `C`, no location, no time, no thresholds, summary off) when absent, and a stored time string gives its parse |
| UserPreferences.RoundTrip | models/user_preferences.py:14-32 | `from_dict(to_dict(p)) == p` for every record |
| UserPreferences.DecodeOnlyUserId | models/user_preferences.py:5-12 | a dictionary holding only the user id decodes to the default record: no location, language `es`, unit `C`, no time, no thresholds, daily summary off |
| UserPreferences.ExtraKeyIgnored | models/user_preferences.py:32 | a key that is not one of the seven fields does not affect decoding |
| UserPreferences.MissingUserIdRaises | models/user_preferences.py:6 | a dictionary without `user_id` fails to decode |
| TimeOfDay.Format | models/user_preferences.py:21 | `strftime("%H:%M")` is five characters with the colon at index 2 and digit pairs whose values are the hour and the minute |
| TimeOfDay.Parse | models/user_preferences.py:29-31 | `hour, minute = map(int, text.split(":"))` then `time(hour, minute)`, with `None` where Python raises; its behaviour is stated by `TimeOfDay.ParseAccepts`, `TimeOfDay.ParseSound` and `TimeOfDay.ParseShape` |
| TimeOfDay.ParseShape | weather_bot.py:238-240 | accepted text holds only digits and a colon, is at least three characters long, and starts and ends with a digit |
| TimeOfDay.ParseFormat | models/user_preferences.py:21-31 | parsing a formatted time gives the time back |
| TimeOfDay.FormatParseCanonical | models/user_preferences.py:21 | every well-formed in-range `HH:MM` string parses, and formatting the result gives the same string |
| TimeOfDay.ParseAccepts | weather_bot.py:238-240 | two digit runs around one colon parse exactly when the hour is below 24 and the minute below 60, to those values |
| TimeOfDay.ParseSound | weather_bot.py:238-240 | whatever parses is two digit runs around one colon with in-range values, and the result is their values |
| TimeOfDay.ParseRejectsOutOfRange | weather_bot.py:240 | `25:00` and `12:60` are refused |
| TimeOfDay.ParseRejectsMalformed | weather_bot.py:239 | `abc`, the empty text and `08:00:00` are refused |
| TimeOfDay.ThreePiecesRefused | weather_bot.py:239 | text with two colons never parses: unpacking three pieces into two names raises |
| Storage.Load | utils/storage.py:16-25 | a parsed file gives its mapping; a missing or unreadable file gives an empty one; nothing has been written |
| Storage.KeyInjective | utils/storage.py:37-43 | different user ids never share a storage key |
| Storage.Get | utils/storage.py:35-39 | nothing is returned exactly when the user's key is absent; for a present key the read succeeds exactly when `from_dict` accepts the entry, returns what `from_dict` makes of it, and otherwise raises `from_dict`'s error |
| Storage.Save | utils/storage.py:41-44 | the key set gains the user's key; that entry decodes to the saved record; every other entry is unchanged; one write |
| Storage.Delete | utils/storage.py:46-50 | only the user's key is removed and the others keep their entries; one write when the key was present; for an absent key the store is unchanged, with no write |
| Storage.GetAfterSave | utils/storage.py:35-44 | the first read after saving a record returns that record |
| Storage.GetOtherAfterSave | utils/storage.py:43 | saving one user's record leaves every other user's read unchanged |
| Storage.GetAfterDelete | utils/storage.py:46-50 | after a delete the user's read returns nothing |
| Storage.GetOtherAfterDelete | utils/storage.py:48-49 | deleting one user leaves every other user's read unchanged |
| Storage.GetNeverSaved | utils/storage.py:16-25 | after loading from a missing or unreadable file, every read returns nothing |
| Storage.SaveOverwrites | utils/storage.py:43 | a second save for the same user replaces the first entirely |
| Scheduler.JobIdInjective | weather_bot.py:451 | different users never share a job id |
| Scheduler.Schedule | weather_bot.py:449-464 | fails exactly when the library raises on removing an absent id and the user has no job; otherwise the ids become the old ones plus the user's, the user's job runs at the new hour and minute, and every other job is unchanged |
| Scheduler.JobsForWellKeyed | weather_bot.py:451-463 | when every job sits under its own user's id, a user's jobs are at most the one under their id |
| Scheduler.ScheduleLeavesOneJob | weather_bot.py:451-464 | after scheduling, the user has exactly one job at the new time, the registry stays keyed by user, and no other user's set of jobs changes |
| Scheduler.Fires | weather_bot.py:466-469 | a job sends only for a user whose key is in the store; `Scheduler.FiresAfterSave` and `Scheduler.FiresOtherAfterSave` state when it sends |
| Scheduler.FiresAfterSave | weather_bot.py:466-469 | right after a record is saved, its user's job sends exactly when the record has a non-empty location and the daily summary on |
| Scheduler.FiresOtherAfterSave | weather_bot.py:466-469 | saving one user's record does not change whether another user's job sends |
| Session.Raise | weather_bot.py:97 | a button sets its flag; the other flags read as before |
| Session.Lower | weather_bot.py:233-234 | `finally` clears the handled flag; the other flags read as before; the session stays non-empty |
| Session.Pending | weather_bot.py:210-259 | nothing is served exactly when no flag is on; otherwise the served flag is on and no flag of higher priority is on |
| Session.ExpectingNonEmpty | weather_bot.py:200 | a session with a flag on is not empty |
| Conditions.TableOf | weather_bot.py:514-576 | the dictionary literal's keys are exactly the entries' keys, and each value is paired with its key in some entry |
| Conditions.TableOfLastEntry | weather_bot.py:514-576 | an entry whose key does not recur later determines that key's value |
| Conditions.Translate | weather_bot.py:577 | the result is the condition itself or a translation listed for it |
| Conditions.TranslateUnknown | weather_bot.py:577 | a condition that is not in the table comes back unchanged |
| Conditions.TranslateKnown | weather_bot.py:514-577 | a key's last entry gives its translation |
| Conditions.TranslateDuplicateKey | weather_bot.py:543-569 | the key that appears twice translates to its later entry |
| Text.IntToString | utils/storage.py:37 | `str(n)` is digits with the value of `n`, after a minus sign when `n` is negative, with no leading zero except for `0` itself |
| Text.IntToStringInjective | utils/storage.py:37 | `str` on integers is injective |
| Text.Split | models/user_preferences.py:30 | `str.split(sep)` gives at least one piece; no piece contains the separator; joining the pieces gives the text back |
| Text.SplitJoin | weather_bot.py:239 | splitting the join of separator-free pieces gives those pieces back |
| Text.StripShape | weather_bot.py:211 | `strip()` keeps one contiguous middle piece, drops only whitespace around it, and leaves no whitespace at either end |
| Text.Words | weather_bot.py:261 | `split()` gives non-empty words without whitespace, and text starting with a non-whitespace character yields a first word starting with it |
| Text.WordsConcat | weather_bot.py:261 | the words of `split()`, run together, are exactly the text's non-whitespace characters in order |
| Text.WordsCons | weather_bot.py:261 | a maximal run of non-whitespace, followed by nothing or by whitespace, comes out of `split()` as one whole word |
| Text.WordsSkipSpace | weather_bot.py:261 | leading whitespace contributes no word to `split()` |
| Text.WordsOfLayout | weather_bot.py:261 | words laid out between whitespace gaps, every inner gap non-empty, are exactly what `split()` returns: each word is a maximal run |
| Text.WordsOfTwo | weather_bot.py:261 | two whitespace-free words with one space between them split into those two words |
| Text.ParseDecimalInteger | weather_bot.py:261 | `float(str(n))` is `n` for every integer |
| Text.ParseDecimalFraction | weather_bot.py:261 | `a.b` reads as the integer part plus the fraction |
| WeatherBot.Perform | weather_bot.py:77-196 | a button never changes the jobs, and changes records only for unit, language, daily-summary and disable-alerts presses by a user with a record |
| WeatherBot.OnStart | weather_bot.py:52-68 | `/start` changes no job or session; it ends in the apology exactly when the record cannot be read, and then changes nothing; otherwise the user has a readable record afterwards |
| WeatherBot.ParseAction | weather_bot.py:77-196 | a unit action comes only from data starting `unit_` and carries the second `_`-separated piece; likewise a language action from `lang_`; `BotProperties.MainMenuActions`, `SettingsMenuActions`, `AlertMenuActions` and `PrefixedActions` state which data select which branch |
| WeatherBot.OnPress | weather_bot.py:70-196 | a press never changes the jobs; an unreadable record gives the apology and changes nothing; a user without a record changes no record |
| WeatherBot.WeatherOrAskLocation | weather_bot.py:283-293 | the weather and forecast buttons change no record or job; they report exactly when the record has a non-empty location, and otherwise ask for a location with the location flag served next |
| WeatherBot.LocationAnswer | weather_bot.py:210-234 | jobs never change; the reply is "location set" exactly when the service found the place; then a user with a record reads back the stripped text as their location; otherwise no record changes; the location flag ends off |
| WeatherBot.TimeAnswer | weather_bot.py:236-257 | text that does not parse is refused and changes no record or job; the apology comes exactly when a user with a record sends a valid time, the library raises on an unknown id and the user has no job; on success the user's job runs at the parsed hour and minute; the time flag ends off |
| WeatherBot.LimitsAnswer | weather_bot.py:259-281 | jobs never change; text is refused exactly when the limits do not parse; the apology comes exactly for valid limits without a record; accepted limits read back as the record's thresholds; the limits flag ends off |
| WeatherBot.OnMessage | weather_bot.py:198-281 | an empty session only gets the menu prompt; an unreadable record gives the apology and changes nothing; with no flag on nothing changes; only the time answer can change the jobs |
| WeatherBot.Step | weather_bot.py:624-626 | only a message answered with "time set" changes the jobs, and no event adds a job id other than its own user's |
| WeatherBot.PressPerforms | weather_bot.py:70-77 | a press by a user whose record reads performs the action its callback data selects, given that record |
| WeatherBot.MessageAnswers | weather_bot.py:207-259 | a message from a user whose record reads and who has a flag on is answered by the handler of the flag served first |
| WeatherBot.ParseLimits | weather_bot.py:261-263 | accepted limits are the values of exactly two words of the stripped text, with the minimum below the maximum |
| BotProperties.LimitsOfIntegers | weather_bot.py:261-263 | two integers separated by a space are accepted exactly when the first is below the second, as those values |
| BotProperties.LimitsOfDecimals | weather_bot.py:261-266 | two decimal words with a space between are accepted exactly when the first is below the second, as those values, so `"15.5 25"` gives (15.5, 25) |
| BotProperties.StartCreatesOnlyWhenAbsent | weather_bot.py:52-59 | `/start` saves the default record for a user without one; a user with a record (or an unreadable one) leaves the state as it was; jobs, sessions and other users' records never change |
| BotProperties.FlagButtonRaisesOneFlag | weather_bot.py:96-153 | change location, daily notification and temperature alerts each turn on their own flag; the user's other flags and other users' sessions, records and jobs are unchanged |
| BotProperties.ReportWithoutLocationAsks | weather_bot.py:290-293 | weather or forecast without a record or a location raises only the location flag and asks for a location; records and jobs are unchanged |
| BotProperties.MainMenuActions | utils/keyboard_handler.py:9-17 | the main menu's callback data select weather, forecast, settings, alerts and help |
| BotProperties.SettingsMenuActions | utils/keyboard_handler.py:27-35 | the settings menu's callback data select their actions |
| BotProperties.AlertMenuActions | utils/keyboard_handler.py:73-77 | the alerts menu's callback data select their actions |
| BotProperties.PrefixedActions | weather_bot.py:110-135 | `unit_<v>` sets unit `v` and `lang_<v>` sets language `v` for every `v` without an underscore, which covers the keyboards' `unit_C`, `unit_F`, `lang_es` and `lang_en` |
| BotProperties.UnitButton | weather_bot.py:110-118 | a unit button sets the unit of an existing record to the value after the underscore and changes no other field, no other user's record, no job and no session |
| BotProperties.LanguageButton | weather_bot.py:134-143 | a language button sets the language of an existing record to the value after the underscore and changes no other field, no other user's record, no job and no session |
| BotProperties.MessageWithEmptySession | weather_bot.py:200-205 | a text message with an empty session only gets the menu prompt and changes nothing |
| BotProperties.MessageWithNoFlagOn | weather_bot.py:210-259 | with every flag written and off, a message gets no reply and changes nothing |
| BotProperties.UnreadableRecordChangesNothing | weather_bot.py:207-208 | when the user's record cannot be read, no event changes the state, and a handler that reads the record ends in the apology |
| BotProperties.MessageClearsOnlyServedFlag | weather_bot.py:210-281 | the served flag is on and has the highest priority among those on; afterwards it is off, the user's other flags and other users' sessions are unchanged, whatever the outcome |
| BotProperties.ServedSession | weather_bot.py:233-281 | after any answer the sessions differ only by the served flag being lowered |
| BotProperties.LocationMessage | weather_bot.py:210-234 | a location the service accepts is stored as the stripped text; one it rejects changes no record; jobs never change |
| BotProperties.TimeMessage | weather_bot.py:236-257 | text whose stripped form parses sets the record's time and, if scheduling succeeds, the user's job at that time; otherwise the apology with the time saved and the jobs unchanged; text that does not parse changes neither the record nor the jobs |
| BotProperties.FirstTimeSchedules | weather_bot.py:449-464 | with a `remove_job` that ignores an unknown id, a user's first valid time creates their job at that hour and minute |
| BotProperties.TimeMessageKeepsGate | weather_bot.py:242-245 | setting the time does not change whether the user's daily job sends |
| BotProperties.LimitsMessage | weather_bot.py:259-281 | accepted limits (minimum below maximum) become the record's thresholds; rejected text changes no record; jobs never change |
| BotProperties.DailySummaryToggles | weather_bot.py:154-167 | with a location the daily-summary flag flips and the job sends exactly when it was off before; without one nothing changes; other users, jobs and sessions are untouched |
| BotProperties.DailySummaryNeedsLocation | weather_bot.py:155-159 | without a readable record with a location the toggle changes nothing |
| BotProperties.DailySummaryTwiceRestores | weather_bot.py:154-167 | two presses give every user back the record they had, with jobs and sessions unchanged |
| BotProperties.DisableAlertsClears | weather_bot.py:168-176 | thresholds cleared and daily summary off, other fields kept, jobs unchanged, and the user's job no longer sends |
| BotProperties.DisableAlertsWithoutRecord | weather_bot.py:168-169 | without a readable record the button changes nothing |
| BotProperties.DisableAlertsIdempotent | weather_bot.py:168-172 | a second press changes no record, job or session |
| Invariant.OwnJob | weather_bot.py:449-464 | in a consistent state a user's job belongs to them and runs at the time held in their readable record |
| Invariant.NoRecordNoJob | weather_bot.py:242-245 | in a consistent state a user without a readable record has no job |
| Invariant.SaveKeepsKeyed | utils/storage.py:43 | saving keeps every readable record under its owner's key |
| Invariant.SaveKeepsConsistent | utils/storage.py:41-44 | saving a record that keeps the time of the user's job keeps the state consistent |
| Invariant.ScheduleKeepsConsistent | weather_bot.py:242-245 | saving a new time and scheduling the job at that time keeps the state consistent |
| Invariant.SaveOwnKeepsConsistent | utils/storage.py:41-44 | rewriting a user's own record with the same id and time keeps the state consistent |
| Invariant.UnitEditKeepsConsistent | weather_bot.py:110-114 | the unit button keeps the state consistent |
| Invariant.LanguageEditKeepsConsistent | weather_bot.py:134-138 | the language button keeps the state consistent |
| Invariant.SummaryEditKeepsConsistent | weather_bot.py:154-162 | the daily-summary toggle keeps the state consistent |
| Invariant.DisableEditKeepsConsistent | weather_bot.py:168-172 | "disable alerts" keeps the state consistent although it leaves the job in place |
| Invariant.PerformKeepsConsistent | weather_bot.py:77-196 | every button action keeps the state consistent |
| Invariant.PressKeepsConsistent | weather_bot.py:70-196 | every button press keeps the state consistent |
| Invariant.LocationAnswerKeepsConsistent | weather_bot.py:210-234 | the location answer keeps the state consistent |
| Invariant.TimeAnswerKeepsConsistent | weather_bot.py:236-257 | the time answer keeps the state consistent: the saved time and the new job agree; scheduling fails only for a user without a job, so the time saved before the failure contradicts no job |
| Invariant.LimitsAnswerKeepsConsistent | weather_bot.py:259-281 | the temperature-limits answer keeps the state consistent |
| Invariant.MessageKeepsConsistent | weather_bot.py:198-281 | every text message keeps the state consistent |
| Invariant.StepKeepsConsistent | weather_bot.py:624-626 | every event the bot handles keeps the state consistent |
| Invariant.RunKeepsConsistent | weather_bot.py:624-626 | any sequence of events keeps the state consistent |
| Invariant.StepAddsNoFirstJob | weather_bot.py:449-457 | with a `remove_job` that raises on an unknown id, no event adds a job to an empty registry |
| Invariant.NoJobEver | weather_bot.py:449-457 | with such a library, every run from a state without jobs still has none, so no daily summary is ever sent |
| Invariant.InitConsistent | weather_bot.py:45-50 | the start-up state is consistent when the loaded records sit under their owners' keys, in particular after a missing or unreadable file |
| Invariant.ReachableJobs | weather_bot.py:449-464 | in every reachable state a user has at most one job, and it runs at the time in their readable record |

"Consistent" means three things. Every readable record sits under its owner's key. Every job
sits under its user's id. Every job's user has a readable record holding the job's time.

## Left out

- **HTTP requests to the weather service.** Location validation is the boolean
  `locationFound` carried by a text message. Report contents, the forecast text and the
  daily message body are not modelled; a weather or forecast button with a location only
  replies `Report`.
- **The weather cache** (models/weather_cache.py). Its TTL expiry and eviction belong to the
  caching library and affect only report contents.
- **Telegram transport.** Message texts, keyboards and edits are not modelled. The error
  handler ignores "Message is not modified"; any other exception becomes the single
  `Apology` reply. The model raises a button's flag whether or not the edit succeeds.
  The source sets the location flag before its edit (weather_bot.py:97, 358-359), but the
  time and limits flags only after theirs (weather_bot.py:120-128, 145-153), so a failed
  edit leaves those two flags off.
- **Cron timing, asyncio and concurrent job runs.** A job is its user, hour and minute, and
  `Scheduler.Fires` is the gate applied when it runs.
- **Other I/O.** File writes are the `writes` counter; their swallowed I/O errors, JSON
  encoding and directory creation are not modelled. Logging, `main`, environment variables
  and the locale-dependent date strings are not modelled either.
- **`from_dict` mutates its argument.** `UserPreferences.FromDict` is a pure function, so
  this is not modelled. In the source, a read of a user with a stored time replaces the time
  text in the stored dictionary with a `time` object (models/user_preferences.py:29-31). This
  happens before Pydantic validates the other fields, so a record that then fails validation
  is mutated too. The consequences are these.
  - A `time` is truthy and has no `split`, so every later read of that user raises
    `AttributeError`.
  - A handler that saves after its read writes the entry afresh, so the entry is clean again.
    If a read is not followed by a save, the entry stays mutated for the rest of the process.
    Every save site first reads the same user (weather_bot.py:55, 75, 208), and that read
    raises before the save, so this user can never be saved again. The daily job's read
    (weather_bot.py:468) never saves, so it leaves the entry mutated too.
  - The weather and forecast buttons read twice (weather_bot.py:75, then 290 or 383). For a
    user with a stored time they always end in the apology.
  - Every later handler of that user raises before its `finally`, so a raised flag stays on.
  - Any user's save then loses the whole file. `_save_data` opens the file for writing, which
    truncates it. `json.dump` writes its output piece by piece and raises `TypeError` at the
    `time` object, leaving a partial, invalid JSON file. The error is swallowed
    (utils/storage.py:27-33). At the next start `json.load` fails, `_load_data` returns an
    empty mapping (utils/storage.py:18-25), and every user's record is gone. In the model
    this is `Storage.Load` on an `Unreadable` disk, after which `Storage.GetNeverSaved`
    applies.
  - So every result that claims the store unchanged after a read without a save holds in
    the source only for a user without a stored time. For a user with a time it describes
    only the first such read. These results are the following.
    - `WeatherBot.Perform`: the store frame of the actions that do not save.
    - `BotProperties.StartCreatesOnlyWhenAbsent`: when a record exists.
    - `BotProperties.FlagButtonRaisesOneFlag` and `BotProperties.ReportWithoutLocationAsks`.
    - `BotProperties.DailySummaryToggles` and `BotProperties.DailySummaryNeedsLocation`: when
      there is no location.
    - `BotProperties.MessageWithNoFlagOn`.
    - `BotProperties.LocationMessage`: when the location is not found.
    - `BotProperties.TimeMessage`: when the text does not parse.
    - `BotProperties.LimitsMessage`: when the text is rejected.
    - `BotProperties.UnreadableRecordChangesNothing`: when the time parses but another field
      has the wrong type.
    - `BotProperties.DailySummaryTwiceRestores`: for a user without a location. The first
      press reads without saving, so in the source the second press raises.
    - `BotProperties.TimeMessageKeepsGate`: when the text does not parse. The daily job's
      read (weather_bot.py:468) then raises, so the job no longer sends.
    - The consistency results of `Invariant`, when `remove_job` ignores an unknown id: the
      definition of a consistent state, `Invariant.OwnJob`, `Invariant.StepKeepsConsistent`,
      `Invariant.RunKeepsConsistent` and `Invariant.ReachableJobs`. In that program a job
      exists, and any read of its user without a save leaves a job whose user's record can
      no longer be read. The job's own first run is such a read. With the library as it is,
      where `remove_job` raises, these results hold in the source too, because no job ever
      exists (`Invariant.NoJobEver`).
- `TimeOfDay.Parse`: reads only ASCII digit runs. It does not model `int()`'s signs, inner
  whitespace, underscores or non-ASCII digits, so text such as `" 8: 05"` or `"+8:05"` is
  refused here but accepted by the source.
- `Text.ParseDecimal`: reads an optional sign, digits and an optional point with digits. It
  does not model exponents, `inf`, `nan`, `.5`, `5.`, underscores or float rounding, so
  limits are exact reals.
- `UserPreferences.FromDict`: uses exact JSON types. It does not model Pydantic's coercions,
  such as a numeric string for an integer or a list for a tuple, nor a falsy non-string time
  such as `0`.
- `Invariant.InitConsistent`: requires that a loaded file keep each record under its owner's
  key. A hand-edited file that breaks this is outside the invariant.
- **Commands as text.** Only text that is not a command reaches `handle_message`
  (weather_bot.py:626). A `Message` event stands for such text; a text like `/Madrid` is
  dropped before the bot sees it and is not an event of the model.
- `WeatherBot.ParseLimits`: promises that accepted limits have the minimum below the
  maximum. The source does not promise this for `nan`. `float("nan")` parses, and
  `nan >= 5.0` is false at weather_bot.py:262, so `"nan 5"` is stored as the limits. The
  model's `ParseDecimal` does not read `nan` or `inf`.
- `Storage.Delete`: no handler calls it. It is modelled only at the store level.

## Findings

| source | as written | input that shows it | evidently intended | confidence | as-written member | corrected member |
|---|---|---|---|---|---|---|
| weather_bot.py:449-457 | `set_daily_notification` calls `remove_job(job_id)` unguarded before `add_job`; APScheduler's `remove_job` raises `JobLookupError` for an unknown id | a user with no job sends a valid time such as `08:00`: the time is saved, the removal raises, no job is added and the user gets the apology; from a start without jobs no job ever exists | remove the job only if it exists (or catch `JobLookupError`), then add it, so the first valid time schedules the daily summary | not executed; high, given the library raises as documented | Invariant.NoJobEver | BotProperties.FirstTimeSchedules |

=== FILE: bot_properties.dfy ===
/** What the bot's handlers promise, stated over `Step` for all states and inputs. */
module BotProperties {
  import opened Common
  import opened Text
  import opened TimeOfDay
  import opened UserPreferences
  import opened Storage
  import opened Scheduler
  import opened Session
  import opened WeatherBot
  import opened Invariant

  /** `/start` creates a default record only for a user without one, and touches nothing
      else; a user who already has a record is left exactly as they were. */
  lemma StartCreatesOnlyWhenAbsent(lib: Library, st: State, uid: int)
    ensures var after := Step(lib, st, Start(uid)).state;
            && (Get(st.store, uid) == Ok(None) ==> Get(after.store, uid) == Ok(Some(Default(uid))))
            && (Get(st.store, uid) != Ok(None) ==> after == st)
            && after.jobs == st.jobs && after.sessions == st.sessions
            && forall other :: other != uid ==> Get(after.store, other) == Get(st.store, other)
  {
    var after := Step(lib, st, Start(uid)).state;
    if Get(st.store, uid) == Ok(None) {
      GetAfterSave(st.store, Default(uid));
      forall other | other != uid
        ensures Get(after.store, other) == Get(st.store, other)
      {
        GetOtherAfterSave(st.store, Default(uid), other);
      }
    }
  }

  /** The awaited-input flag a button raises, if it raises one. */
  function FlagOf(a: Action): Option<Flag> {
    match a
    case ChangeLocation => Some(ExpectingLocation)
    case DailyNotification => Some(ExpectingTime)
    case TempAlerts => Some(ExpectingTempLimits)
    case _ => None
  }

  /** "Change location", "daily notification" and "temperature alerts" each turn on their
      own flag, leave the user's other flags and every other user's session as they were,
      and change neither records nor jobs. */
  lemma FlagButtonRaisesOneFlag(lib: Library, st: State, uid: int, data: string)
    requires Get(st.store, uid).Ok?
    requires FlagOf(ParseAction(data)).Some?
    ensures var f, after := FlagOf(ParseAction(data)).value, Step(lib, st, Press(uid, data)).state;
            && Expecting(SessionOf(after, uid), f)
            && (forall g :: g != f ==> Expecting(SessionOf(after, uid), g) == Expecting(SessionOf(st, uid), g))
            && (forall other :: other != uid ==> SessionOf(after, other) == SessionOf(st, other))
            && after.store == st.store && after.jobs == st.jobs
  {
    var prefs, a := Get(st.store, uid).value, ParseAction(data);
    PressPerforms(lib, st, uid, data, prefs);
    assert a == ChangeLocation || a == DailyNotification || a == TempAlerts;
    assert Step(lib, st, Press(uid, data)).state == RaiseFlag(st, uid, FlagOf(a).value);
  }

  /** Asking for the weather or the forecast without a record or a location turns on the
      location flag alone (through `request_location`) and changes nothing else. */
  lemma ReportWithoutLocationAsks(lib: Library, st: State, uid: int, data: string)
    requires ParseAction(data) == Weather || ParseAction(data) == Forecast
    requires Get(st.store, uid) == Ok(None)
             || (Get(st.store, uid).Ok? && Get(st.store, uid).value.Some?
                 && !HasLocation(Get(st.store, uid).value.value))
    ensures var o := Step(lib, st, Press(uid, data));
            && o.reply == AskLocation
            && Expecting(SessionOf(o.state, uid), ExpectingLocation)
            && (forall g :: g != ExpectingLocation ==>
                  Expecting(SessionOf(o.state, uid), g) == Expecting(SessionOf(st, uid), g))
            && o.state.store == st.store && o.state.jobs == st.jobs
  {
  }

  /** The buttons of the main menu map to their actions. */
  lemma MainMenuActions()
    ensures ParseAction("weather") == Weather && ParseAction("forecast") == Forecast
    ensures ParseAction("settings") == Settings && ParseAction("alerts") == Alerts
    ensures ParseAction("help") == Help
  {
    SelectsWeather();
    SelectsForecast();
    SelectsSettings();
    SelectsAlerts();
    SelectsHelp();
  }

  /** The buttons of the settings menu map to their actions. */
  lemma SettingsMenuActions()
    ensures ParseAction("change_location") == ChangeLocation
    ensures ParseAction("change_unit") == ChangeUnit
    ensures ParseAction("daily_notification") == DailyNotification
    ensures ParseAction("change_language") == ChangeLanguage
    ensures ParseAction("main_menu") == MainMenu
  {
    SelectsChangeLocation();
    SelectsChangeUnit();
    SelectsDailyNotification();
    SelectsChangeLanguage();
    SelectsMainMenu();
  }

  /** The buttons of the alerts menu map to their actions. */
  lemma AlertMenuActions()
    ensures ParseAction("temp_alerts") == TempAlerts
    ensures ParseAction("daily_summary") == DailySummary
    ensures ParseAction("disable_alerts") == DisableAlerts
  {
    SelectsTempAlerts();
    SelectsDailySummary();
    SelectsDisableAlerts();
  }

  // One callback string each, so that every evaluation of the dispatch chain stays small.
  lemma SelectsWeather() ensures ParseAction("weather") == Weather {}
  lemma SelectsForecast() ensures ParseAction("forecast") == Forecast {}
  lemma SelectsSettings() ensures ParseAction("settings") == Settings {}
  lemma SelectsAlerts() ensures ParseAction("alerts") == Alerts {}
  lemma SelectsHelp()
    ensures ParseAction("help") == Help
  {
    var d := "help";
    assert !StartsWith(d, "unit_") && !StartsWith(d, "lang_");
    assert d != "weather" && d != "forecast" && d != "settings" && d != "alerts"
        && d != "main_menu" && d != "change_location" && d != "change_unit"
        && d != "daily_notification" && d != "change_language" && d != "temp_alerts"
        && d != "daily_summary" && d != "disable_alerts";
  }
  lemma SelectsChangeLocation() ensures ParseAction("change_location") == ChangeLocation {}
  lemma SelectsChangeUnit() ensures ParseAction("change_unit") == ChangeUnit {}
  lemma SelectsDailyNotification()
    ensures ParseAction("daily_notification") == DailyNotification
  {
    var d := "daily_notification";
    assert !StartsWith(d, "unit_") && !StartsWith(d, "lang_");
    assert d != "weather" && d != "forecast" && d != "settings" && d != "alerts"
        && d != "main_menu" && d != "change_location" && d != "change_unit";
  }
  lemma SelectsChangeLanguage()
    ensures ParseAction("change_language") == ChangeLanguage
  {
    var d := "change_language";
    assert !StartsWith(d, "unit_") && !StartsWith(d, "lang_");
    assert d != "weather" && d != "forecast" && d != "settings" && d != "alerts"
        && d != "main_menu" && d != "change_location" && d != "change_unit"
        && d != "daily_notification";
  }
  lemma SelectsMainMenu() ensures ParseAction("main_menu") == MainMenu {}
  lemma SelectsTempAlerts()
    ensures ParseAction("temp_alerts") == TempAlerts
  {
    var d := "temp_alerts";
    assert !StartsWith(d, "unit_") && !StartsWith(d, "lang_");
    assert d != "weather" && d != "forecast" && d != "settings" && d != "alerts"
        && d != "main_menu" && d != "change_location" && d != "change_unit"
        && d != "daily_notification" && d != "change_language";
  }
  lemma SelectsDailySummary()
    ensures ParseAction("daily_summary") == DailySummary
  {
    var d := "daily_summary";
    assert !StartsWith(d, "unit_") && !StartsWith(d, "lang_");
    assert d != "weather" && d != "forecast" && d != "settings" && d != "alerts"
        && d != "main_menu" && d != "change_location" && d != "change_unit"
        && d != "daily_notification" && d != "change_language" && d != "temp_alerts";
  }
  lemma SelectsDisableAlerts()
    ensures ParseAction("disable_alerts") == DisableAlerts
  {
    var d := "disable_alerts";
    assert !StartsWith(d, "unit_") && !StartsWith(d, "lang_");
    assert d != "weather" && d != "forecast" && d != "settings" && d != "alerts"
        && d != "main_menu" && d != "change_location" && d != "change_unit"
        && d != "daily_notification" && d != "change_language" && d != "temp_alerts"
        && d != "daily_summary";
  }

  /** `unit_<u>` selects unit `u` and `lang_<l>` language `l`, for any value without an
      underscore (the keyboards send `unit_C`, `unit_F`, `lang_es` and `lang_en`). */
  lemma PrefixedActions(v: string)
    requires '_' !in v
    ensures ParseAction("unit_" + v) == SetUnit(v)
    ensures ParseAction("lang_" + v) == SetLanguage(v)
  {
    UnitPrefixed(v);
    LanguagePrefixed(v);
  }

  lemma UnitPrefixed(v: string)
    requires '_' !in v
    ensures ParseAction("unit_" + v) == SetUnit(v)
  {
    var u := "unit_" + v;
    assert u == "unit" + ['_'] + v;
    SplitPair("unit", '_', v);
    StartsWithSlice(u, "unit_");
    assert u[..5] == "unit_";
    assert u[0] == 'u' && u[1] == 'n';
    assert u != "weather" && u != "forecast" && u != "settings" && u != "alerts"
        && u != "main_menu" && u != "change_location" && u != "change_unit";
    assert Split(u, '_')[1] == v;
  }

  lemma LanguagePrefixed(v: string)
    requires '_' !in v
    ensures ParseAction("lang_" + v) == SetLanguage(v)
  {
    var l := "lang_" + v;
    assert l == "lang" + ['_'] + v;
    SplitPair("lang", '_', v);
    StartsWithSlice(l, "lang_");
    assert l[..5] == "lang_";
    assert l[0] == 'l' && l[1] == 'a';
    assert !StartsWith(l, "unit_") by { assert "unit_"[0] == 'u'; }
    assert l != "weather" && l != "forecast" && l != "settings" && l != "alerts"
        && l != "main_menu" && l != "change_location" && l != "change_unit"
        && l != "daily_notification" && l != "change_language";
    assert Split(l, '_')[1] == v;
  }

  /** A text message from a user with an empty session only gets the menu prompt. */
  lemma MessageWithEmptySession(lib: Library, st: State, uid: int, text: string, found: bool)
    requires |SessionOf(st, uid)| == 0
    ensures Step(lib, st, Message(uid, text, found)) == Outcome(st, UseMenu)
  {
  }

  /** A user whose flags have all been written but are all off gets no reply, and
      nothing changes. */
  lemma MessageWithNoFlagOn(lib: Library, st: State, uid: int, text: string, found: bool)
    requires |SessionOf(st, uid)| > 0 && Get(st.store, uid).Ok?
    requires forall f :: !Expecting(SessionOf(st, uid), f)
    ensures Step(lib, st, Message(uid, text, found)) == Outcome(st, Silent)
  {
  }

  /** A record that cannot be read aborts every handler before anything changes. */
  lemma UnreadableRecordChangesNothing(lib: Library, st: State, ev: Event)
    requires Get(st.store, ev.user).Err?
    ensures Step(lib, st, ev).state == st
    ensures ev.Start? || ev.Press? || |SessionOf(st, ev.user)| > 0 ==> Step(lib, st, ev).reply == Apology
  {
  }

  /** A text message serves the first flag that is on (location, then time, then
      limits) and turns off that flag alone, whatever the outcome; other users' sessions
      are untouched. */
  lemma MessageClearsOnlyServedFlag(lib: Library, st: State, uid: int, text: string, found: bool)
    requires |SessionOf(st, uid)| > 0 && Get(st.store, uid).Ok?
    requires Pending(SessionOf(st, uid)).Some?
    ensures var f, before := Pending(SessionOf(st, uid)).value, SessionOf(st, uid);
            var after := Step(lib, st, Message(uid, text, found)).state;
            && Expecting(before, f)
            && (forall g :: Expecting(before, g) ==> Rank(f) <= Rank(g))
            && !Expecting(SessionOf(after, uid), f)
            && (forall g :: g != f ==> Expecting(SessionOf(after, uid), g) == Expecting(before, g))
            && (forall other :: other != uid ==> SessionOf(after, other) == SessionOf(st, other))
  {
    ServedSession(lib, st, uid, text, found);
  }

  /** Whatever branch serves a message, the sessions afterwards differ from those before
      only in the served flag of the sender, which is off. */
  lemma ServedSession(lib: Library, st: State, uid: int, text: string, found: bool)
    requires |SessionOf(st, uid)| > 0 && Get(st.store, uid).Ok?
    requires Pending(SessionOf(st, uid)).Some?
    ensures Step(lib, st, Message(uid, text, found)).state.sessions
         == st.sessions[uid := Lower(SessionOf(st, uid), Pending(SessionOf(st, uid)).value)]
  {
    var prefs := Get(st.store, uid).value;
    MessageAnswers(lib, st, uid, text, found, prefs);
  }

  /** The location answer: a location the weather service accepts is stored (as typed,
      stripped); one it rejects changes no record. Jobs never change. */
  lemma LocationMessage(lib: Library, st: State, uid: int, p: Prefs, text: string, found: bool)
    requires Get(st.store, uid) == Ok(Some(p)) && p.userId == uid
    requires Pending(SessionOf(st, uid)) == Some(ExpectingLocation)
    ensures var o := Step(lib, st, Message(uid, text, found));
            && o.state.jobs == st.jobs
            && (found ==> o.reply == LocationSet
                          && Get(o.state.store, uid) == Ok(Some(p.(location := Some(Strip(text))))))
            && (!found ==> o.reply == LocationNotFound && o.state.store == st.store)
  {
    MessageAnswers(lib, st, uid, text, found, Some(p));
    var o := Step(lib, st, Message(uid, text, found));
    assert o == LocationAnswer(st, uid, Some(p), text, found);
    if found {
      var p' := p.(location := Some(Strip(text)));
      assert o.state.store == Save(st.store, p');
      GetAfterSave(st.store, p');
    }
  }

  /** The time answer: stripped text that reads as a time sets the record's time and
      replaces the user's job with one at that time (unless the scheduler library refuses
      to remove a job that is not there); text that does not read as a time leaves the
      record and the jobs as they were. The job is scheduled whether or not the daily
      summary is on. */
  lemma TimeMessage(lib: Library, st: State, uid: int, p: Prefs, text: string, found: bool)
    requires Get(st.store, uid) == Ok(Some(p)) && p.userId == uid
    requires Pending(SessionOf(st, uid)) == Some(ExpectingTime)
    ensures var o := Step(lib, st, Message(uid, text, found));
            match Parse(Strip(text))
            case None =>
              o.reply == TimeInvalid && o.state.store == st.store && o.state.jobs == st.jobs
            case Some(t) =>
              && Get(o.state.store, uid) == Ok(Some(p.(notificationTime := Some(t))))
              && (Schedule(lib, st.jobs, uid, t).Ok? ==>
                    o.reply == TimeSet && JobId(uid) in o.state.jobs
                    && o.state.jobs[JobId(uid)] == Job(uid, t.hour, t.minute))
              && (Schedule(lib, st.jobs, uid, t).Err? ==> o.reply == Apology && o.state.jobs == st.jobs)
  {
    MessageAnswers(lib, st, uid, text, found, Some(p));
    var o := Step(lib, st, Message(uid, text, found));
    assert o == TimeAnswer(lib, st, uid, Some(p), text);
    var st' := LowerFlag(st, uid, ExpectingTime);
    match Parse(Strip(text))
    case None =>
      assert o == Outcome(st', TimeInvalid);
    case Some(t) =>
      var p' := p.(notificationTime := Some(t));
      assert o.state.store == Save(st.store, p');
      GetAfterSave(st.store, p');
  }

  /** With a `remove_job` that ignores an unknown id, a user's first valid time creates
      their job at that time. */
  lemma FirstTimeSchedules(lib: Library, st: State, uid: int, p: Prefs, text: string, found: bool)
    requires !lib.removeAbsentRaises
    requires Get(st.store, uid) == Ok(Some(p)) && p.userId == uid
    requires Pending(SessionOf(st, uid)) == Some(ExpectingTime)
    requires Parse(Strip(text)).Some?
    ensures var o, t := Step(lib, st, Message(uid, text, found)), Parse(Strip(text)).value;
            && o.reply == TimeSet
            && JobId(uid) in o.state.jobs && o.state.jobs[JobId(uid)] == Job(uid, t.hour, t.minute)
  {
    TimeMessage(lib, st, uid, p, text, found);
  }

  /** The limits answer: two numbers with the first below the second become the
      record's thresholds; anything else leaves records and jobs as they were. */
  lemma LimitsMessage(lib: Library, st: State, uid: int, p: Prefs, text: string, found: bool)
    requires Get(st.store, uid) == Ok(Some(p)) && p.userId == uid
    requires Pending(SessionOf(st, uid)) == Some(ExpectingTempLimits)
    ensures var o := Step(lib, st, Message(uid, text, found));
            && o.state.jobs == st.jobs
            && match ParseLimits(text)
               case None => o.reply == LimitsInvalid && o.state.store == st.store
               case Some(limits) =>
                 && limits.0 < limits.1 && o.reply == LimitsSet
                 && Get(o.state.store, uid) == Ok(Some(p.(tempAlertThresholds := Some(limits))))
  {
    MessageAnswers(lib, st, uid, text, found, Some(p));
    var o := Step(lib, st, Message(uid, text, found));
    assert o == LimitsAnswer(st, uid, Some(p), text);
    var st' := LowerFlag(st, uid, ExpectingTempLimits);
    match ParseLimits(text)
    case None =>
      assert o == Outcome(st', LimitsInvalid);
    case Some(limits) =>
      var p' := p.(tempAlertThresholds := Some(limits));
      assert o.state.store == Save(st.store, p');
      GetAfterSave(st.store, p');
  }

  /** Two integers, written as `str()` writes them with a space between, are accepted
      as limits exactly when the first is below the second. */
  lemma LimitsOfIntegers(lo: int, hi: int)
    ensures ParseLimits(IntToString(lo) + " " + IntToString(hi))
         == if lo < hi then Some((lo as real, hi as real)) else None
  {
    var a, b := IntToString(lo), IntToString(hi);
    var text := a + " " + b;
    IntToStringUnspaced(lo);
    IntToStringUnspaced(hi);
    assert a[0] in a && b[|b| - 1] in b;
    assert text[0] == a[0] && text[|text| - 1] == b[|b| - 1];
    StripUnpadded(text);
    WordsOfTwo(a, b);
    ParseDecimalInteger(lo);
    ParseDecimalInteger(hi);
  }

  /** Two decimal numbers with a space between are accepted as limits exactly when the
      first is below the second, as those values: `"15.5 25"` gives (15.5, 25). */
  lemma LimitsOfDecimals(a: string, b: string)
    requires |a| > 0 && forall c :: c in a ==> !IsSpace(c)
    requires |b| > 0 && forall c :: c in b ==> !IsSpace(c)
    requires ParseDecimal(a).Some? && ParseDecimal(b).Some?
    ensures var lo, hi := ParseDecimal(a).value, ParseDecimal(b).value;
            ParseLimits(a + " " + b) == if lo < hi then Some((lo, hi)) else None
  {
    var text := a + " " + b;
    assert text[0] == a[0] && a[0] in a;
    assert text[|text| - 1] == b[|b| - 1] && b[|b| - 1] in b;
    StripUnpadded(text);
    WordsOfTwo(a, b);
  }

  /** The daily-summary toggle flips the flag when a location is set and otherwise
      changes nothing; it never touches jobs, sessions or another user's record. */
  lemma DailySummaryToggles(lib: Library, st: State, uid: int, p: Prefs, data: string)
    requires Get(st.store, uid) == Ok(Some(p)) && p.userId == uid
    requires ParseAction(data) == DailySummary
    ensures var o := Step(lib, st, Press(uid, data));
            && o.state.jobs == st.jobs && o.state.sessions == st.sessions
            && (HasLocation(p) ==> Get(o.state.store, uid) == Ok(Some(p.(dailyForecast := !p.dailyForecast))))
            && (!HasLocation(p) ==> o.state == st)
            && (HasLocation(p) ==> (Fires(o.state.store, uid) <==> !p.dailyForecast))
            && forall u :: u != uid ==> Get(o.state.store, u) == Get(st.store, u)
  {
    PressPerforms(lib, st, uid, data, Some(p));
    SummaryToggle(st, uid, p);
  }

  /** The toggle itself, once the button has been recognised. */
  lemma SummaryToggle(st: State, uid: int, p: Prefs)
    requires Get(st.store, uid) == Ok(Some(p)) && p.userId == uid
    ensures var o := Perform(st, uid, Some(p), DailySummary);
            && o.state.jobs == st.jobs && o.state.sessions == st.sessions
            && (HasLocation(p) ==> Get(o.state.store, uid) == Ok(Some(p.(dailyForecast := !p.dailyForecast))))
            && (!HasLocation(p) ==> o.state == st)
            && (HasLocation(p) ==> (Fires(o.state.store, uid) <==> !p.dailyForecast))
            && forall u :: u != uid ==> Get(o.state.store, u) == Get(st.store, u)
  {
    var o := Perform(st, uid, Some(p), DailySummary);
    if HasLocation(p) {
      var p1 := p.(dailyForecast := !p.dailyForecast);
      assert o == Outcome(SaveRecord(st, p1), SummaryToggled);
      GetAfterSave(st.store, p1);
      forall u | u != uid
        ensures Get(o.state.store, u) == Get(st.store, u)
      {
        GetOtherAfterSave(st.store, p1, u);
      }
    } else {
      assert o == Outcome(st, NeedLocationFirst);
    }
  }

  /** Without a readable record with a location, the daily-summary toggle changes nothing. */
  lemma DailySummaryNeedsLocation(lib: Library, st: State, uid: int, data: string)
    requires ParseAction(data) == DailySummary
    requires !(Get(st.store, uid).Ok? && Get(st.store, uid).value.Some? && HasLocation(Get(st.store, uid).value.value))
    ensures Step(lib, st, Press(uid, data)).state == st
  {
    if Get(st.store, uid).Ok? {
      PressPerforms(lib, st, uid, data, Get(st.store, uid).value);
    }
  }

  /** Pressing the daily-summary toggle twice gives every user back the record they had. */
  lemma DailySummaryTwiceRestores(lib: Library, st: State, uid: int, data: string)
    requires RecordsKeyedByOwner(st.store)
    requires ParseAction(data) == DailySummary
    ensures var once := Step(lib, st, Press(uid, data)).state;
            var twice := Step(lib, once, Press(uid, data)).state;
            && twice.jobs == st.jobs && twice.sessions == st.sessions
            && forall u :: Get(twice.store, u) == Get(st.store, u)
  {
    var once := Step(lib, st, Press(uid, data)).state;
    var g := Get(st.store, uid);
    if g.Ok? && g.value.Some? && HasLocation(g.value.value) {
      var p := g.value.value;
      DailySummaryToggles(lib, st, uid, p, data);
      var p1 := p.(dailyForecast := !p.dailyForecast);
      DailySummaryToggles(lib, once, uid, p1, data);
      assert p1.(dailyForecast := !p1.dailyForecast) == p;
    } else {
      DailySummaryNeedsLocation(lib, st, uid, data);
      DailySummaryNeedsLocation(lib, once, uid, data);
    }
  }

  /** "Disable alerts" clears the thresholds and the daily summary, keeps every other
      field, leaves the jobs in place, and the user's job no longer goes on to send. */
  lemma DisableAlertsClears(lib: Library, st: State, uid: int, p: Prefs, data: string)
    requires Get(st.store, uid) == Ok(Some(p)) && p.userId == uid
    requires ParseAction(data) == DisableAlerts
    ensures var o := Step(lib, st, Press(uid, data));
            && Get(o.state.store, uid) == Ok(Some(p.(tempAlertThresholds := None, dailyForecast := false)))
            && o.state.jobs == st.jobs && o.state.sessions == st.sessions
            && !Fires(o.state.store, uid)
            && forall u :: u != uid ==> Get(o.state.store, u) == Get(st.store, u)
  {
    var o := Step(lib, st, Press(uid, data));
    var p1 := p.(tempAlertThresholds := None, dailyForecast := false);
    PressPerforms(lib, st, uid, data, Some(p));
    assert o == Perform(st, uid, Some(p), DisableAlerts);
    assert o.state.store == Save(st.store, p1);
    GetAfterSave(st.store, p1);
    forall u | u != uid
      ensures Get(o.state.store, u) == Get(st.store, u)
    {
      GetOtherAfterSave(st.store, p1, u);
    }
  }

  /** Without a record "disable alerts" changes nothing. */
  lemma DisableAlertsWithoutRecord(lib: Library, st: State, uid: int, data: string)
    requires ParseAction(data) == DisableAlerts
    requires !(Get(st.store, uid).Ok? && Get(st.store, uid).value.Some?)
    ensures Step(lib, st, Press(uid, data)).state == st
  {
    if Get(st.store, uid).Ok? {
      PressPerforms(lib, st, uid, data, Get(st.store, uid).value);
    }
  }

  /** Pressing "disable alerts" a second time changes no record and no job. */
  lemma DisableAlertsIdempotent(lib: Library, st: State, uid: int, data: string)
    requires RecordsKeyedByOwner(st.store)
    requires ParseAction(data) == DisableAlerts
    ensures var once := Step(lib, st, Press(uid, data)).state;
            var twice := Step(lib, once, Press(uid, data)).state;
            && twice.jobs == once.jobs && twice.sessions == once.sessions
            && forall u :: Get(twice.store, u) == Get(once.store, u)
  {
    var once := Step(lib, st, Press(uid, data)).state;
    var g := Get(st.store, uid);
    if g.Ok? && g.value.Some? {
      var p := g.value.value;
      DisableAlertsClears(lib, st, uid, p, data);
      var p1 := p.(tempAlertThresholds := None, dailyForecast := false);
      DisableAlertsClears(lib, once, uid, p1, data);
      assert p1.(tempAlertThresholds := None, dailyForecast := false) == p1;
    } else {
      DisableAlertsWithoutRecord(lib, st, uid, data);
      DisableAlertsWithoutRecord(lib, once, uid, data);
    }
  }

  /** A unit button changes only the unit of an existing record. */
  lemma UnitButton(lib: Library, st: State, uid: int, p: Prefs, data: string, v: string)
    requires Get(st.store, uid) == Ok(Some(p)) && p.userId == uid
    requires ParseAction(data) == SetUnit(v)
    ensures var o := Step(lib, st, Press(uid, data));
            && Get(o.state.store, uid) == Ok(Some(p.(temperatureUnit := v)))
            && o.state.jobs == st.jobs && o.state.sessions == st.sessions
            && forall u :: u != uid ==> Get(o.state.store, u) == Get(st.store, u)
  {
    var o := Step(lib, st, Press(uid, data));
    var p1 := p.(temperatureUnit := v);
    PressPerforms(lib, st, uid, data, Some(p));
    assert o.state.store == Save(st.store, p1);
    GetAfterSave(st.store, p1);
    forall u | u != uid
      ensures Get(o.state.store, u) == Get(st.store, u)
    {
      GetOtherAfterSave(st.store, p1, u);
    }
  }

  /** A language button changes only the language of an existing record. */
  lemma LanguageButton(lib: Library, st: State, uid: int, p: Prefs, data: string, v: string)
    requires Get(st.store, uid) == Ok(Some(p)) && p.userId == uid
    requires ParseAction(data) == SetLanguage(v)
    ensures var o := Step(lib, st, Press(uid, data));
            && Get(o.state.store, uid) == Ok(Some(p.(language := v)))
            && o.state.jobs == st.jobs && o.state.sessions == st.sessions
            && forall u :: u != uid ==> Get(o.state.store, u) == Get(st.store, u)
  {
    var o := Step(lib, st, Press(uid, data));
    var p1 := p.(language := v);
    PressPerforms(lib, st, uid, data, Some(p));
    assert o.state.store == Save(st.store, p1);
    GetAfterSave(st.store, p1);
    forall u | u != uid
      ensures Get(o.state.store, u) == Get(st.store, u)
    {
      GetOtherAfterSave(st.store, p1, u);
    }
  }

  /** Setting the time never switches the daily send on or off: the job is registered
      whatever the summary flag says, and only the gate decides when it fires. */
  lemma TimeMessageKeepsGate(lib: Library, st: State, uid: int, p: Prefs, text: string, found: bool)
    requires Get(st.store, uid) == Ok(Some(p)) && p.userId == uid
    requires Pending(SessionOf(st, uid)) == Some(ExpectingTime)
    ensures Fires(Step(lib, st, Message(uid, text, found)).state.store, uid) == Fires(st.store, uid)
  {
    TimeMessage(lib, st, uid, p, text, found);
  }
}

=== FILE: common.dfy ===
/** Failure-carrying wrappers shared by every module of the model. */
module Common {

  /** Python's `Optional[T]`: `None` or a present value. */
  datatype Option<+T> = None | Some(value: T)

  /** The outcome of an operation that raises in the source: a value, or the reason it
      raised. Usable with `:-`, which stops at the first failure as a Python exception does. */
  datatype Result<+T, +E> = Ok(value: T) | Err(error: E) {

    predicate IsFailure() {
      Err?
    }

    function PropagateFailure<U>(): Result<U, E>
      requires Err?
    {
      Err(error)
    }

    function Extract(): T
      requires Ok?
    {
      value
    }
  }
}

=== FILE: conditions.dfy ===
/** The condition translation of `translate_condition`: a table from the weather
    provider's English condition text to Spanish, with the input returned unchanged
    when it has no entry. */
module Conditions {

  /** The entries of the table literal, in the order they are written. The key
      "Moderate or heavy snow showers" is written twice (indices 28 and 54). */
  const Entries: seq<(string, string)> := [
    ("Clear", "Despejado"),
    ("Sunny", "Soleado"),
    ("Partly cloudy", "Parcialmente nublado"),
    ("Cloudy", "Nublado"),
    ("Overcast", "Cubierto"),
    ("Mist", "Neblina"),
    ("Patchy rain possible", "Posible lluvia dispersa"),
    ("Patchy rain nearby", "Lluvia cerca"),
    ("Patchy snow possible", "Posible nieve dispersa"),
    ("Patchy sleet possible", "Posible aguanieve dispersa"),
    ("Patchy freezing drizzle possible", "Posible llovizna helada dispersa"),
    ("Patchy snow nearby", "Nieve cerca"),
    ("Patchy drizzle nearby", "Llovizna cerca"),
    ("Light rain with thunder", "Lluvia ligera con truenos"),
    ("Thunderstorm", "Tormenta eléctrica"),
    ("Heavy thunderstorm", "Tormenta eléctrica intensa"),
    ("Drizzle", "Llovizna"),
    ("Heavy drizzle", "Llovizna intensa"),
    ("Rain", "Lluvia"),
    ("Snow", "Nieve"),
    ("Sleet", "Aguanieve"),
    ("Thunderstorm with rain", "Tormenta eléctrica con lluvia"),
    ("Thunderstorm with drizzle", "Tormenta eléctrica con llovizna"),
    ("Thunderstorm with hail", "Tormenta eléctrica con granizo"),
    ("Patchy light drizzle", "Llovizna ligera dispersa"),
    ("Moderate drizzle", "Llovizna moderada"),
    ("Moderate rain at times", "Lluvia moderada por momentos"),
    ("Heavy rain at times", "Lluvia intensa por momentos"),
    ("Moderate or heavy snow showers", "Nevadas moderadas o intensas"),
    ("Thundery outbreaks possible", "Posibles tormentas eléctricas"),
    ("Blowing snow", "Ventisca"),
    ("Blizzard", "Tormenta de nieve"),
    ("Fog", "Niebla"),
    ("Freezing fog", "Niebla helada"),
    ("Light drizzle", "Llovizna ligera"),
    ("Freezing drizzle", "Llovizna helada"),
    ("Heavy freezing drizzle", "Llovizna helada intensa"),
    ("Light rain", "Lluvia ligera"),
    ("Moderate rain", "Lluvia moderada"),
    ("Heavy rain", "Lluvia intensa"),
    ("Light freezing rain", "Lluvia helada ligera"),
    ("Moderate or heavy freezing rain", "Lluvia helada moderada o intensa"),
    ("Light sleet", "Aguanieve ligera"),
    ("Moderate or heavy sleet", "Aguanieve moderada o intensa"),
    ("Light snow", "Nieve ligera"),
    ("Moderate snow", "Nieve moderada"),
    ("Heavy snow", "Nieve intensa"),
    ("Ice pellets", "Granizo"),
    ("Light rain shower", "Lluvia ligera intermitente"),
    ("Moderate or heavy rain shower", "Lluvia moderada o intensa intermitente"),
    ("Torrential rain shower", "Lluvia torrencial"),
    ("Light sleet showers", "Aguanieve ligera intermitente"),
    ("Moderate or heavy sleet showers", "Aguanieve moderada o intensa intermitente"),
    ("Light snow showers", "Nevada ligera intermitente"),
    ("Moderate or heavy snow showers", "Nevada moderada o intensa intermitente"),
    ("Light showers of ice pellets", "Granizo ligero intermitente"),
    ("Moderate or heavy showers of ice pellets", "Granizo moderado o intenso intermitente"),
    ("Patchy light rain with thunder", "Lluvia ligera dispersa con truenos"),
    ("Moderate or heavy rain with thunder", "Lluvia moderada o intensa con truenos"),
    ("Patchy light snow with thunder", "Nieve ligera dispersa con truenos"),
    ("Moderate or heavy snow with thunder", "Nieve moderada o intensa con truenos")
  ]

  /** The dictionary a literal with these entries builds: an entry written later
      replaces an earlier one with the same key. */
  function TableOf(entries: seq<(string, string)>): (table: map<string, string>)
    ensures forall key :: key in table <==> exists i :: 0 <= i < |entries| && entries[i].0 == key
    ensures forall key :: key in table ==> exists i :: 0 <= i < |entries| && entries[i] == (key, table[key])
  {
    if |entries| == 0 then map[]
    else
      var last := entries[|entries| - 1];
      var prefix := entries[..|entries| - 1];
      var table := TableOf(prefix)[last.0 := last.1];
      assert forall i :: 0 <= i < |prefix| ==> prefix[i] == entries[i];
      table
  }

  /** An entry that no later entry overrides decides its key's translation. */
  lemma {:induction false} TableOfLastEntry(entries: seq<(string, string)>, i: nat)
    requires i < |entries|
    requires forall j :: i < j < |entries| ==> entries[j].0 != entries[i].0
    ensures entries[i].0 in TableOf(entries) && TableOf(entries)[entries[i].0] == entries[i].1
    decreases |entries|
  {
    if i < |entries| - 1 {
      var prefix := entries[..|entries| - 1];
      assert prefix[i] == entries[i];
      TableOfLastEntry(prefix, i);
    }
  }

  /** `translate_condition`: the table's text for a known condition, otherwise the
      condition itself. The result is always the input or a value the table pairs with it. */
  function Translate(condition: string): (r: string)
    ensures r == condition || exists i :: 0 <= i < |Entries| && Entries[i] == (condition, r)
  {
    var table := TableOf(Entries);
    if condition in table then table[condition] else condition
  }

  /** A condition with no entry comes back unchanged. */
  lemma TranslateUnknown(condition: string)
    requires forall i :: 0 <= i < |Entries| ==> Entries[i].0 != condition
    ensures Translate(condition) == condition
  {
  }

  /** A condition comes back as the text of the last entry written for it. */
  lemma TranslateKnown(i: nat)
    requires i < |Entries|
    requires forall j :: i < j < |Entries| ==> Entries[j].0 != Entries[i].0
    ensures Translate(Entries[i].0) == Entries[i].1
  {
    TableOfLastEntry(Entries, i);
  }

  /** The key written twice resolves to its second entry. */
  lemma TranslateDuplicateKey()
    ensures Translate("Moderate or heavy snow showers") == "Nevada moderada o intensa intermitente"
  {
    assert Entries[54] == ("Moderate or heavy snow showers", "Nevada moderada o intensa intermitente");
    forall j | 54 < j < |Entries|
      ensures Entries[j].0 != Entries[54].0
    {
      assert j in {55, 56, 57, 58, 59, 60};
    }
    TranslateKnown(54);
  }
}

=== FILE: invariant.dfy ===
/** What holds in every state the bot can reach: records sit under their owner's key,
    jobs sit under their user's id, and every job belongs to a user whose record can be
    read and holds the job's time. */
module Invariant {
  import opened Common
  import opened TimeOfDay
  import opened UserPreferences
  import opened Storage
  import opened Scheduler
  import opened Session
  import opened Text
  import opened WeatherBot

  /** Every record that can be read belongs to the user it is stored for. */
  ghost predicate RecordsKeyedByOwner(s: Store) {
    forall uid :: Get(s, uid).Ok? && Get(s, uid).value.Some? ==> Get(s, uid).value.value.userId == uid
  }

  /** The job's user has a readable record whose notification time is the job's time. */
  ghost predicate JobBacked(s: Store, j: Job) {
    && Get(s, j.userId).Ok?
    && Get(s, j.userId).value.Some?
    && Get(s, j.userId).value.value.notificationTime == Some(Time(j.hour, j.minute))
  }

  ghost predicate Consistent(st: State) {
    && RecordsKeyedByOwner(st.store)
    && WellKeyed(st.jobs)
    && forall k :: k in st.jobs ==> JobBacked(st.store, st.jobs[k])
  }

  /** A user's job, if there is one, is theirs and runs at the time in their record. */
  lemma OwnJob(st: State, uid: int)
    requires Consistent(st) && JobId(uid) in st.jobs
    ensures st.jobs[JobId(uid)].userId == uid
    ensures Get(st.store, uid).Ok? && Get(st.store, uid).value.Some?
    ensures var j := st.jobs[JobId(uid)];
            Get(st.store, uid).value.value.notificationTime == Some(Time(j.hour, j.minute))
  {
    var u := st.jobs[JobId(uid)].userId;
    if u != uid {
      JobIdInjective(u, uid);
    }
  }

  /** A user without a readable record has no job. */
  lemma NoRecordNoJob(st: State, uid: int)
    requires Consistent(st)
    requires !(Get(st.store, uid).Ok? && Get(st.store, uid).value.Some?)
    ensures JobId(uid) !in st.jobs
  {
    if JobId(uid) in st.jobs {
      OwnJob(st, uid);
    }
  }

  /** Saving a record keeps every record under its owner's key. */
  lemma SaveKeepsKeyed(s: Store, p: Prefs)
    requires RecordsKeyedByOwner(s)
    ensures RecordsKeyedByOwner(Save(s, p))
  {
    forall u | Get(Save(s, p), u).Ok? && Get(Save(s, p), u).value.Some?
      ensures Get(Save(s, p), u).value.value.userId == u
    {
      if u == p.userId {
        GetAfterSave(s, p);
      } else {
        GetOtherAfterSave(s, p, u);
      }
    }
  }

  /** Saving a record that keeps the time of the user's job (or for a user without a
      job) keeps the state consistent. */
  lemma SaveKeepsConsistent(st: State, p: Prefs)
    requires Consistent(st)
    requires JobId(p.userId) in st.jobs ==>
               var j := st.jobs[JobId(p.userId)];
               p.notificationTime == Some(Time(j.hour, j.minute))
    ensures Consistent(st.(store := Save(st.store, p)))
  {
    var s' := Save(st.store, p);
    SaveKeepsKeyed(st.store, p);
    forall k | k in st.jobs
      ensures JobBacked(s', st.jobs[k])
    {
      var j := st.jobs[k];
      if j.userId == p.userId {
        GetAfterSave(st.store, p);
      } else {
        GetOtherAfterSave(st.store, p, j.userId);
      }
    }
  }

  /** Saving a new time and then scheduling the user's job at that time keeps the state
      consistent. */
  lemma ScheduleKeepsConsistent(lib: Library, st: State, p: Prefs, t: Time)
    requires Consistent(st)
    requires Schedule(lib, st.jobs, p.userId, t).Ok?
    ensures var q := p.(notificationTime := Some(t));
            Consistent(State(Save(st.store, q), Schedule(lib, st.jobs, p.userId, t).value, st.sessions))
  {
    var uid := p.userId;
    var q := p.(notificationTime := Some(t));
    var s' := Save(st.store, q);
    var jobs' := Schedule(lib, st.jobs, uid, t).value;
    SaveKeepsKeyed(st.store, q);
    ScheduleLeavesOneJob(lib, st.jobs, uid, t);
    GetAfterSave(st.store, q);
    forall k | k in jobs'
      ensures JobBacked(s', jobs'[k])
    {
      if k != JobId(uid) {
        var j := st.jobs[k];
        assert jobs'[k] == j;
        GetOtherAfterSave(st.store, q, j.userId);
      }
    }
  }

  /** Consistency speaks only of the store and the jobs. */
  lemma FrameKeepsConsistent(st: State, st': State)
    requires Consistent(st) && st'.store == st.store && st'.jobs == st.jobs
    ensures Consistent(st')
  {
  }

  /** Saving a changed copy of the user's own record that keeps its time keeps the state
      consistent. */
  lemma SaveOwnKeepsConsistent(st: State, uid: int, p: Prefs, q: Prefs)
    requires Consistent(st) && Get(st.store, uid) == Ok(Some(p))
    requires q.userId == p.userId && q.notificationTime == p.notificationTime
    ensures Consistent(SaveRecord(st, q))
  {
    assert p.userId == uid;
    if JobId(uid) in st.jobs {
      OwnJob(st, uid);
    }
    SaveKeepsConsistent(st, q);
  }

  /** The unit button keeps the state consistent. */
  lemma UnitEditKeepsConsistent(st: State, uid: int, p: Prefs, u: string)
    requires Consistent(st) && Get(st.store, uid) == Ok(Some(p))
    ensures Consistent(Perform(st, uid, Some(p), SetUnit(u)).state)
  {
    assert Perform(st, uid, Some(p), SetUnit(u)).state == SaveRecord(st, p.(temperatureUnit := u));
    SaveOwnKeepsConsistent(st, uid, p, p.(temperatureUnit := u));
  }

  /** The language button keeps the state consistent. */
  lemma LanguageEditKeepsConsistent(st: State, uid: int, p: Prefs, l: string)
    requires Consistent(st) && Get(st.store, uid) == Ok(Some(p))
    ensures Consistent(Perform(st, uid, Some(p), SetLanguage(l)).state)
  {
    assert Perform(st, uid, Some(p), SetLanguage(l)).state == SaveRecord(st, p.(language := l));
    SaveOwnKeepsConsistent(st, uid, p, p.(language := l));
  }

  /** The daily-summary button keeps the state consistent: the toggle leaves the time alone. */
  lemma SummaryEditKeepsConsistent(st: State, uid: int, p: Prefs)
    requires Consistent(st) && Get(st.store, uid) == Ok(Some(p))
    ensures Consistent(Perform(st, uid, Some(p), DailySummary).state)
  {
    var o := Perform(st, uid, Some(p), DailySummary);
    if HasLocation(p) {
      assert o.state == SaveRecord(st, p.(dailyForecast := !p.dailyForecast));
      SaveOwnKeepsConsistent(st, uid, p, p.(dailyForecast := !p.dailyForecast));
    } else {
      FrameKeepsConsistent(st, o.state);
    }
  }

  /** The disable-alerts button keeps the state consistent, although it does not cancel the job. */
  lemma DisableEditKeepsConsistent(st: State, uid: int, p: Prefs)
    requires Consistent(st) && Get(st.store, uid) == Ok(Some(p))
    ensures Consistent(Perform(st, uid, Some(p), DisableAlerts).state)
  {
    var q := p.(tempAlertThresholds := None, dailyForecast := false);
    assert Perform(st, uid, Some(p), DisableAlerts).state == SaveRecord(st, q);
    SaveOwnKeepsConsistent(st, uid, p, q);
  }

  /** Every button keeps the state consistent, given the record read for the user. */
  lemma PerformKeepsConsistent(st: State, uid: int, prefs: Option<Prefs>, a: Action)
    requires Consistent(st) && Get(st.store, uid) == Ok(prefs)
    ensures Consistent(Perform(st, uid, prefs, a).state)
  {
    if prefs.Some? && a.SetUnit? {
      UnitEditKeepsConsistent(st, uid, prefs.value, a.unit);
    } else if prefs.Some? && a.SetLanguage? {
      LanguageEditKeepsConsistent(st, uid, prefs.value, a.lang);
    } else if prefs.Some? && a.DailySummary? {
      SummaryEditKeepsConsistent(st, uid, prefs.value);
    } else if prefs.Some? && a.DisableAlerts? {
      DisableEditKeepsConsistent(st, uid, prefs.value);
    } else {
      FrameKeepsConsistent(st, Perform(st, uid, prefs, a).state);
    }
  }

  /** Every button press keeps the state consistent. */
  lemma PressKeepsConsistent(lib: Library, st: State, uid: int, data: string)
    requires Consistent(st)
    ensures Consistent(Step(lib, st, Press(uid, data)).state)
  {
    match Get(st.store, uid)
    case Err(_) =>
    case Ok(prefs) =>
      PressPerforms(lib, st, uid, data, prefs);
      PerformKeepsConsistent(st, uid, prefs, ParseAction(data));
  }

  /** The location answer keeps the state consistent. */
  lemma LocationAnswerKeepsConsistent(st: State, uid: int, prefs: Option<Prefs>, text: string, found: bool)
    requires Consistent(st) && Get(st.store, uid) == Ok(prefs)
    ensures Consistent(LocationAnswer(st, uid, prefs, text, found).state)
  {
    var st' := LowerFlag(st, uid, ExpectingLocation);
    FrameKeepsConsistent(st, st');
    if found && prefs.Some? {
      var p := prefs.value;
      SaveOwnKeepsConsistent(st', uid, p, p.(location := Some(Strip(text))));
    }
  }

  /** The time answer keeps the state consistent: the saved time and the new job agree. */
  lemma TimeAnswerKeepsConsistent(lib: Library, st: State, uid: int, prefs: Option<Prefs>, text: string)
    requires Consistent(st) && Get(st.store, uid) == Ok(prefs)
    ensures Consistent(TimeAnswer(lib, st, uid, prefs, text).state)
  {
    var st' := LowerFlag(st, uid, ExpectingTime);
    FrameKeepsConsistent(st, st');
    match Parse(Strip(text))
    case None =>
    case Some(t) =>
      if prefs.Some? {
        var p := prefs.value;
        assert p.userId == uid;
        var q := p.(notificationTime := Some(t));
        if Schedule(lib, st.jobs, uid, t).Ok? {
          ScheduleKeepsConsistent(lib, st', p, t);
          assert TimeAnswer(lib, st, uid, prefs, text).state
              == State(Save(st'.store, q), Schedule(lib, st'.jobs, uid, t).value, st'.sessions);
        } else {
          SaveKeepsConsistent(st', q);
          assert TimeAnswer(lib, st, uid, prefs, text).state == SaveRecord(st', q);
        }
      }
  }

  /** The limits answer keeps the state consistent. */
  lemma LimitsAnswerKeepsConsistent(st: State, uid: int, prefs: Option<Prefs>, text: string)
    requires Consistent(st) && Get(st.store, uid) == Ok(prefs)
    ensures Consistent(LimitsAnswer(st, uid, prefs, text).state)
  {
    var st' := LowerFlag(st, uid, ExpectingTempLimits);
    FrameKeepsConsistent(st, st');
    if prefs.Some? && ParseLimits(text).Some? {
      var p := prefs.value;
      SaveOwnKeepsConsistent(st', uid, p, p.(tempAlertThresholds := ParseLimits(text)));
    }
  }

  /** Every text message keeps the state consistent. */
  lemma MessageKeepsConsistent(lib: Library, st: State, uid: int, text: string, found: bool)
    requires Consistent(st)
    ensures Consistent(Step(lib, st, Message(uid, text, found)).state)
  {
    var session := SessionOf(st, uid);
    if |session| > 0 && Get(st.store, uid).Ok? && Pending(session).Some? {
      var prefs := Get(st.store, uid).value;
      MessageAnswers(lib, st, uid, text, found, prefs);
      match Pending(session).value
      case ExpectingLocation => LocationAnswerKeepsConsistent(st, uid, prefs, text, found);
      case ExpectingTime => TimeAnswerKeepsConsistent(lib, st, uid, prefs, text);
      case ExpectingTempLimits => LimitsAnswerKeepsConsistent(st, uid, prefs, text);
    }
  }

  /** Every event keeps the state consistent. */
  lemma StepKeepsConsistent(lib: Library, st: State, ev: Event)
    requires Consistent(st)
    ensures Consistent(Step(lib, st, ev).state)
  {
    match ev
    case Start(uid) =>
      if Get(st.store, uid) == Ok(None) {
        NoRecordNoJob(st, uid);
        SaveKeepsConsistent(st, Default(uid));
      }
    case Press(uid, data) => PressKeepsConsistent(lib, st, uid, data);
    case Message(uid, text, found) => MessageKeepsConsistent(lib, st, uid, text, found);
  }

  /** The bot handling a sequence of events in order. */
  function Run(lib: Library, st: State, evs: seq<Event>): (r: State)
    ensures |evs| == 0 ==> r == st
    decreases |evs|
  {
    if |evs| == 0 then st else Run(lib, Step(lib, st, evs[0]).state, evs[1..])
  }

  /** Any sequence of events keeps the state consistent. */
  lemma {:induction false} RunKeepsConsistent(lib: Library, st: State, evs: seq<Event>)
    requires Consistent(st)
    ensures Consistent(Run(lib, st, evs))
    decreases |evs|
  {
    if |evs| > 0 {
      StepKeepsConsistent(lib, st, evs[0]);
      RunKeepsConsistent(lib, Step(lib, st, evs[0]).state, evs[1..]);
    }
  }

  /** Starting from a store whose records sit under their owners' keys (in particular
      from no file or an unreadable one) gives a consistent state. */
  lemma InitConsistent(disk: Disk)
    requires !disk.Json? || RecordsKeyedByOwner(Load(disk))
    ensures Consistent(Init(disk))
  {
  }

  /** In every reachable state each user has at most one job, and it runs at the time
      their record holds. */
  lemma ReachableJobs(lib: Library, disk: Disk, evs: seq<Event>, uid: int)
    requires !disk.Json? || RecordsKeyedByOwner(Load(disk))
    ensures var st := Run(lib, Init(disk), evs);
            && JobsFor(st.jobs, uid) == (if JobId(uid) in st.jobs then {JobId(uid)} else {})
            && (JobId(uid) in st.jobs ==>
                  var j := st.jobs[JobId(uid)];
                  && Get(st.store, uid).Ok? && Get(st.store, uid).value.Some?
                  && Get(st.store, uid).value.value.notificationTime == Some(Time(j.hour, j.minute)))
  {
    InitConsistent(disk);
    RunKeepsConsistent(lib, Init(disk), evs);
    var st := Run(lib, Init(disk), evs);
    JobsForWellKeyed(st.jobs, uid);
    if JobId(uid) in st.jobs {
      OwnJob(st, uid);
    }
  }

  /** With a library whose `remove_job` raises on an id it does not hold, no event ever
      adds a job to an empty registry: the first removal always fails. */
  lemma StepAddsNoFirstJob(lib: Library, st: State, ev: Event)
    requires lib.removeAbsentRaises && st.jobs == map[]
    ensures Step(lib, st, ev).state.jobs == map[]
  {
    match ev
    case Start(_) =>
    case Press(uid, data) =>
      if Get(st.store, uid).Ok? {
        PressPerforms(lib, st, uid, data, Get(st.store, uid).value);
      }
    case Message(uid, text, found) =>
      var session := SessionOf(st, uid);
      if |session| > 0 && Get(st.store, uid).Ok? && Pending(session).Some? {
        var prefs := Get(st.store, uid).value;
        MessageAnswers(lib, st, uid, text, found, prefs);
        if Pending(session).value == ExpectingTime {
          var t := Parse(Strip(text));
          if t.Some? && prefs.Some? {
            assert Schedule(lib, st.jobs, uid, t.value).Err?;
          }
        }
      }
  }

  /** So with such a library the bot, started without jobs, never schedules one: no
      daily summary is ever sent. */
  lemma {:induction false} NoJobEver(lib: Library, st: State, evs: seq<Event>)
    requires lib.removeAbsentRaises && st.jobs == map[]
    ensures Run(lib, st, evs).jobs == map[]
    decreases |evs|
  {
    if |evs| > 0 {
      StepAddsNoFirstJob(lib, st, evs[0]);
      NoJobEver(lib, Step(lib, st, evs[0]).state, evs[1..]);
    }
  }
}

=== FILE: scheduler.dfy ===
/** The daily-notification jobs: one recurring job per user under the id
    `"daily_<user_id>"`, and the gate a job passes when it fires. */
module Scheduler {
  import opened Common
  import opened Text
  import opened TimeOfDay
  import opened UserPreferences
  import opened Storage

  /** A cron job that runs `send_daily_notification(userId)` every day at hour:minute. */
  datatype Job = Job(userId: int, hour: Hour, minute: Minute)

  /** The scheduler's jobs by id. */
  type Jobs = map<string, Job>

  /** `f"daily_{user_id}"`. */
  function JobId(uid: int): string {
    "daily_" + IntToString(uid)
  }

  /** Different users never share a job id. */
  lemma JobIdInjective(a: int, b: int)
    requires a != b
    ensures JobId(a) != JobId(b)
  {
    if JobId(a) == JobId(b) {
      assert IntToString(a) == JobId(a)[6..] == JobId(b)[6..] == IntToString(b);
      IntToStringInjective(a, b);
    }
  }

  /** How the scheduler library's `remove_job` treats an id it does not hold: raising
      (`JobLookupError`) or doing nothing. The library is not part of this model. */
  datatype Library = Library(removeAbsentRaises: bool)

  datatype ScheduleError = JobLookup(id: string)

  /** `set_daily_notification`: remove the user's job, then add one at the new time.
      It fails, adding nothing, only where the library refuses to remove a missing job;
      otherwise the user's job is replaced and no other job changes. */
  function Schedule(lib: Library, jobs: Jobs, uid: int, t: Time): (r: Result<Jobs, ScheduleError>)
    ensures r.Err? <==> lib.removeAbsentRaises && JobId(uid) !in jobs
    ensures r.Ok? ==> r.value.Keys == jobs.Keys + {JobId(uid)}
    ensures r.Ok? ==> r.value[JobId(uid)] == Job(uid, t.hour, t.minute)
    ensures r.Ok? ==> forall k :: k in jobs && k != JobId(uid) ==> r.value[k] == jobs[k]
  {
    var id := JobId(uid);
    if id !in jobs && lib.removeAbsentRaises then Err(JobLookup(id))
    else Ok((jobs - {id})[id := Job(uid, t.hour, t.minute)])
  }

  /** Every job sits under the id built from the user it notifies. */
  ghost predicate WellKeyed(jobs: Jobs) {
    forall k :: k in jobs ==> k == JobId(jobs[k].userId)
  }

  /** The ids of the jobs that notify `uid`. */
  function JobsFor(jobs: Jobs, uid: int): set<string> {
    set k | k in jobs && jobs[k].userId == uid
  }

  /** In a well-keyed registry a user has at most one job, under their own id. */
  lemma JobsForWellKeyed(jobs: Jobs, uid: int)
    requires WellKeyed(jobs)
    ensures JobsFor(jobs, uid) == if JobId(uid) in jobs then {JobId(uid)} else {}
  {
    forall k | k in JobsFor(jobs, uid)
      ensures k == JobId(uid)
    {
    }
    if JobId(uid) in jobs {
      var u := jobs[JobId(uid)].userId;
      if u != uid {
        JobIdInjective(u, uid);
      }
    }
  }

  /** Scheduling keeps the registry well keyed, leaves exactly one job for the user, at
      the new time, and leaves every other user's jobs as they were. */
  lemma ScheduleLeavesOneJob(lib: Library, jobs: Jobs, uid: int, t: Time)
    requires WellKeyed(jobs)
    requires Schedule(lib, jobs, uid, t).Ok?
    ensures var after := Schedule(lib, jobs, uid, t).value;
            && WellKeyed(after)
            && JobsFor(after, uid) == {JobId(uid)}
            && after[JobId(uid)].hour == t.hour && after[JobId(uid)].minute == t.minute
            && forall other :: other != uid ==> JobsFor(after, other) == JobsFor(jobs, other)
  {
    var after := Schedule(lib, jobs, uid, t).value;
    JobsForWellKeyed(after, uid);
    forall other | other != uid
      ensures JobsFor(after, other) == JobsFor(jobs, other)
    {
      JobIdInjective(uid, other);
      JobsForWellKeyed(after, other);
      JobsForWellKeyed(jobs, other);
    }
  }

  /** The gate `send_daily_notification` applies when a job fires: it reads the record
      afresh and goes on only if one exists, a location is set and the daily summary is
      on. A record that cannot be read stops the run before anything is sent. */
  function Fires(s: Store, uid: int): (r: bool)
    ensures r ==> Key(uid) in s.data
  {
    match Get(s, uid)
    case Ok(Some(p)) => HasLocation(p) && p.dailyForecast
    case _ => false
  }

  /** Right after a record is saved, its user's job sends exactly when the record has a
      location and the daily summary on. */
  lemma FiresAfterSave(s: Store, p: Prefs)
    ensures Fires(Save(s, p), p.userId) <==> HasLocation(p) && p.dailyForecast
  {
    GetAfterSave(s, p);
  }

  /** Saving one user's record does not change whether another user's job sends. */
  lemma FiresOtherAfterSave(s: Store, p: Prefs, other: int)
    requires other != p.userId
    ensures Fires(Save(s, p), other) == Fires(s, other)
  {
    GetOtherAfterSave(s, p, other);
  }
}

=== FILE: session.dfy ===
/** The per-user conversation state: which free-text answers the bot is waiting for. */
module Session {
  import opened Common

  /** The three keys the bot writes into a user's `context.user_data`. */
  datatype Flag = ExpectingLocation | ExpectingTime | ExpectingTempLimits

  /** A user's `context.user_data`: the flags written so far. A flag once written stays a
      key, `True` or `False`, so an empty session differs from one whose flags are all off.
      Several flags can be on at once. */
  type Session = map<Flag, bool>

  /** `user_data.get(flag)` is truthy. */
  predicate Expecting(s: Session, f: Flag) {
    f in s && s[f]
  }

  /** A session with a flag on is not empty. */
  lemma ExpectingNonEmpty(s: Session, f: Flag)
    requires Expecting(s, f)
    ensures |s| > 0
  {
    assert f in s.Keys;
  }

  /** `user_data[flag] = True`: turns that flag on and leaves the others as they were. */
  function Raise(s: Session, f: Flag): (s': Session)
    ensures Expecting(s', f) && |s'| > 0
    ensures forall g :: g != f ==> Expecting(s', g) == Expecting(s, g)
  {
    s[f := true]
  }

  /** `user_data[flag] = False`: turns that flag off and leaves the others as they were. */
  function Lower(s: Session, f: Flag): (s': Session)
    ensures !Expecting(s', f) && |s'| > 0
    ensures forall g :: g != f ==> Expecting(s', g) == Expecting(s, g)
  {
    s[f := false]
  }

  /** The order `handle_message` tests the flags in. */
  function Rank(f: Flag): nat {
    match f
    case ExpectingLocation => 0
    case ExpectingTime => 1
    case ExpectingTempLimits => 2
  }

  /** The flag `handle_message` serves: the first one that is on, location before time
      before temperature limits; `None` when every flag is off. */
  function Pending(s: Session): (r: Option<Flag>)
    ensures r.None? <==> forall f :: !Expecting(s, f)
    ensures r.Some? ==> Expecting(s, r.value)
    ensures r.Some? ==> forall g :: Rank(g) < Rank(r.value) ==> !Expecting(s, g)
  {
    if Expecting(s, ExpectingLocation) then Some(ExpectingLocation)
    else if Expecting(s, ExpectingTime) then Some(ExpectingTime)
    else if Expecting(s, ExpectingTempLimits) then Some(ExpectingTempLimits)
    else
      NoFlagOn(s);
      None
  }

  lemma NoFlagOn(s: Session)
    requires !Expecting(s, ExpectingLocation) && !Expecting(s, ExpectingTime)
    requires !Expecting(s, ExpectingTempLimits)
    ensures forall f :: !Expecting(s, f)
  {
    forall f
      ensures !Expecting(s, f)
    {
      match f
      case ExpectingLocation =>
      case ExpectingTime =>
      case ExpectingTempLimits =>
    }
  }
}

=== FILE: storage.dfy ===
/** The preference store: an in-memory map from `str(user_id)` to serialised records,
    rewritten in full to disk after every change. */
module Storage {
  import opened Common
  import opened Text
  import opened UserPreferences

  /** The mapping `data`, and how many times it has been written out to disk. */
  datatype Store = Store(data: map<string, Dict>, writes: nat)

  /** What `_load_data` finds at startup: no file, a file that cannot be read or is not
      valid JSON, or a parsed JSON object. */
  datatype Disk = NoFile | Unreadable | Json(contents: map<string, Dict>)

  /** `_load_data`: the file's mapping when it parses, otherwise an empty one. */
  function Load(disk: Disk): (s: Store)
    ensures s.writes == 0
    ensures disk.Json? ==> s.data == disk.contents
    ensures !disk.Json? ==> s.data == map[]
  {
    Store(if disk.Json? then disk.contents else map[], 0)
  }

  /** The key a user's record is stored under: `str(user_id)`. */
  function Key(uid: int): string {
    IntToString(uid)
  }

  /** Different users never share a key. */
  lemma KeyInjective(a: int, b: int)
    requires a != b
    ensures Key(a) != Key(b)
  {
    if Key(a) == Key(b) {
      IntToStringInjective(a, b);
    }
  }

  /** `get_user_preferences`: nothing for an unknown user, otherwise the stored record
      read back by `from_dict` (which raises on a malformed record). */
  function Get(s: Store, uid: int): (r: Result<Option<Prefs>, DecodeError>)
    ensures Key(uid) !in s.data <==> r == Ok(None)
    ensures r.Ok? && r.value.Some? ==> FromDict(s.data[Key(uid)]) == Ok(r.value.value)
    ensures Key(uid) in s.data ==> (r.Ok? <==> FromDict(s.data[Key(uid)]).Ok?)
    ensures r.Err? ==> FromDict(s.data[Key(uid)]) == Err(r.error)
  {
    if Key(uid) in s.data then
      match FromDict(s.data[Key(uid)])
      case Ok(p) => Ok(Some(p))
      case Err(e) => Err(e)
    else Ok(None)
  }

  /** `save_user_preferences`: the user's entry becomes `to_dict(p)` (replacing any earlier
      one), every other entry stays as it was, and the mapping is written out once. */
  function Save(s: Store, p: Prefs): (s': Store)
    ensures s'.data.Keys == s.data.Keys + {Key(p.userId)}
    ensures FromDict(s'.data[Key(p.userId)]) == Ok(p)
    ensures forall k :: k in s.data && k != Key(p.userId) ==> s'.data[k] == s.data[k]
    ensures s'.writes == s.writes + 1
  {
    RoundTrip(p);
    Store(s.data[Key(p.userId) := ToDict(p)], s.writes + 1)
  }

  /** `delete_user_preferences`: drops only the user's entry and writes once; for a user
      without an entry it neither changes nor writes anything. */
  function Delete(s: Store, uid: int): (s': Store)
    ensures s'.data.Keys == s.data.Keys - {Key(uid)}
    ensures forall k :: k in s'.data ==> s'.data[k] == s.data[k]
    ensures Key(uid) in s.data ==> s'.writes == s.writes + 1
    ensures Key(uid) !in s.data ==> s' == s
  {
    if Key(uid) in s.data then Store(s.data - {Key(uid)}, s.writes + 1) else s
  }

  /** The first read after saving a record gives that record back. */
  lemma GetAfterSave(s: Store, p: Prefs)
    ensures Get(Save(s, p), p.userId) == Ok(Some(p))
  {
  }

  /** Saving one user's record does not change what any other user reads. */
  lemma GetOtherAfterSave(s: Store, p: Prefs, uid: int)
    requires uid != p.userId
    ensures Get(Save(s, p), uid) == Get(s, uid)
  {
    KeyInjective(uid, p.userId);
  }

  /** After a delete the user reads nothing, whether or not a record was there. */
  lemma GetAfterDelete(s: Store, uid: int)
    ensures Get(Delete(s, uid), uid) == Ok(None)
  {
  }

  /** Deleting one user's record does not change what any other user reads. */
  lemma GetOtherAfterDelete(s: Store, uid: int, other: int)
    requires other != uid
    ensures Get(Delete(s, uid), other) == Get(s, other)
  {
    KeyInjective(uid, other);
  }

  /** A store that started without a readable file has no record for anyone. */
  lemma GetNeverSaved(disk: Disk, uid: int)
    requires !disk.Json?
    ensures Get(Load(disk), uid) == Ok(None)
  {
  }

  /** A second save for the same user leaves the same records as saving only the second. */
  lemma SaveOverwrites(s: Store, p: Prefs, q: Prefs)
    requires p.userId == q.userId
    ensures Save(Save(s, p), q).data == Save(s, q).data
  {
  }
}

=== FILE: text.dfy ===
/** Character-level text handling that the bot applies to user input and to stored
    values: decimal digits, `str()` of an integer, zero-padding, `str.split(sep)`,
    `str.strip()`, `str.split()` on whitespace, and a decimal-number reader. */
module Text {
  import opened Common

  predicate IsDigit(c: char) {
    '0' <= c <= '9'
  }

  predicate AllDigits(s: string) {
    forall i :: 0 <= i < |s| ==> IsDigit(s[i])
  }

  /** A non-empty run of decimal digits. */
  predicate IsDigits(s: string) {
    |s| > 0 && AllDigits(s)
  }

  function DigitValue(c: char): nat
    requires IsDigit(c)
  {
    c as int - '0' as int
  }

  /** The base-10 value of a digit string, most significant digit first. */
  function DigitsValue(s: string): nat
    requires AllDigits(s)
  {
    if |s| == 0 then 0 else 10 * DigitsValue(s[..|s| - 1]) + DigitValue(s[|s| - 1])
  }

  function DigitChar(d: nat): (c: char)
    requires d < 10
    ensures IsDigit(c) && DigitValue(c) == d
  {
    ('0' as int + d) as char
  }

  lemma DigitsValueAppend(s: string, c: char)
    requires AllDigits(s) && IsDigit(c)
    ensures AllDigits(s + [c])
    ensures DigitsValue(s + [c]) == 10 * DigitsValue(s) + DigitValue(c)
  {
    assert (s + [c])[..|s|] == s;
  }

  /** Python's `str(n)` for a natural number: canonical decimal, no leading zero. */
  function NatToDigits(n: nat): (s: string)
    ensures IsDigits(s) && DigitsValue(s) == n
    ensures s[0] == '0' ==> s == "0"
  {
    if n < 10 then [DigitChar(n)]
    else
      var prefix := NatToDigits(n / 10);
      DigitsValueAppend(prefix, DigitChar(n % 10));
      prefix + [DigitChar(n % 10)]
  }

  /** Python's `str(n)` for any integer: a minus sign in front of a negative number. */
  function IntToString(n: int): (s: string)
    ensures n >= 0 ==> IsDigits(s) && DigitsValue(s) == n
    ensures n >= 0 ==> (s[0] == '0' ==> s == "0")
    ensures n < 0 ==> |s| > 1 && s[0] == '-' && IsDigits(s[1..]) && DigitsValue(s[1..]) == -n
    ensures n < 0 ==> s[1] != '0'
  {
    if n < 0 then "-" + NatToDigits(-n) else NatToDigits(n)
  }

  /** Distinct integers render as distinct strings, so `str(user_id)` is a faithful key. */
  lemma IntToStringInjective(a: int, b: int)
    requires IntToString(a) == IntToString(b)
    ensures a == b
  {
    var s := IntToString(a);
    assert (a < 0) == (s[0] == '-');
    assert (b < 0) == (s[0] == '-');
  }

  /** `strftime("%H")` / `"%M"`: a number below 100 as exactly two digits, zero-padded. */
  function Pad2(n: nat): (s: string)
    requires n < 100
    ensures |s| == 2 && IsDigits(s) && DigitsValue(s) == n
  {
    var s := [DigitChar(n / 10), DigitChar(n % 10)];
    assert s[..1] == [s[0]] && [s[0]][..0] == [];
    assert DigitsValue(s[..1]) == n / 10;
    s
  }

  /** Python's `s.startswith(prefix)`, compared character by character from the front. */
  predicate StartsWith(s: string, prefix: string) {
    |prefix| == 0 || (|s| > 0 && s[0] == prefix[0] && StartsWith(s[1..], prefix[1..]))
  }

  /** `StartsWith` holds exactly when `s` begins with a copy of `prefix`. */
  lemma {:induction false} StartsWithSlice(s: string, prefix: string)
    ensures StartsWith(s, prefix) <==> |prefix| <= |s| && s[..|prefix|] == prefix
    decreases |prefix|
  {
    if |prefix| > 0 && |s| > 0 {
      StartsWithSlice(s[1..], prefix[1..]);
      if |prefix| <= |s| && s[..|prefix|] == prefix {
        assert s[1..][..|prefix| - 1] == prefix[1..];
      }
      if s[0] == prefix[0] && |prefix| - 1 <= |s| - 1 && s[1..][..|prefix| - 1] == prefix[1..] {
        assert s[..|prefix|] == [s[0]] + s[1..][..|prefix| - 1];
        assert prefix == [prefix[0]] + prefix[1..];
      }
    }
  }

  /** The inverse of `Split`: the parts with one separator between neighbours. */
  function Join(parts: seq<string>, sep: char): string
    requires |parts| >= 1
  {
    if |parts| == 1 then parts[0] else parts[0] + [sep] + Join(parts[1..], sep)
  }

  /** Python's `s.split(sep)` for a one-character separator: always at least one part,
      no part holds the separator, and joining the parts gives back `s`. */
  function Split(s: string, sep: char): (parts: seq<string>)
    ensures |parts| >= 1
    ensures forall i :: 0 <= i < |parts| ==> sep !in parts[i]
    ensures Join(parts, sep) == s
  {
    if |s| == 0 then [""]
    else
      var rest := Split(s[1..], sep);
      if s[0] == sep then
        assert [""] + rest == [""] + rest && ([""] + rest)[1..] == rest;
        [""] + rest
      else
        var parts := [[s[0]] + rest[0]] + rest[1..];
        assert parts[1..] == rest[1..];
        assert s == [s[0]] + s[1..];
        if |rest| == 1 then parts
        else
          assert Join(rest, sep) == rest[0] + [sep] + Join(rest[1..], sep);
          parts
  }

  lemma SplitNoSeparator(s: string, sep: char)
    requires sep !in s
    ensures Split(s, sep) == [s]
  {
  }

  lemma {:induction false} SplitCons(a: string, sep: char, t: string)
    requires sep !in a
    ensures Split(a + [sep] + t, sep) == [a] + Split(t, sep)
    decreases |a|
  {
    if |a| == 0 {
      assert a + [sep] + t == [sep] + t;
      assert ([sep] + t)[1..] == t;
    } else {
      var s := a + [sep] + t;
      assert s[0] == a[0] && s[1..] == a[1..] + [sep] + t;
      SplitCons(a[1..], sep, t);
      assert [a[0]] + a[1..] == a;
    }
  }

  /** Two separator-free pieces around one separator split back into exactly those pieces. */
  lemma SplitPair(a: string, sep: char, b: string)
    requires sep !in a && sep !in b
    ensures Split(a + [sep] + b, sep) == [a, b]
  {
    SplitCons(a, sep, b);
    SplitNoSeparator(b, sep);
  }

  /** Text that starts with a separator-free word and the separator splits into that word
      and at least one more piece. */
  lemma SplitAfterPrefix(s: string, word: string, sep: char)
    requires sep !in word && StartsWith(s, word + [sep])
    ensures |Split(s, sep)| >= 2 && Split(s, sep)[0] == word
  {
    StartsWithSlice(s, word + [sep]);
    var rest := s[|word| + 1..];
    assert s == word + [sep] + rest;
    SplitCons(word, sep, rest);
  }

  /** `Split` undoes `Join` whenever no part holds the separator: the two determine each other. */
  lemma {:induction false} SplitJoin(parts: seq<string>, sep: char)
    requires |parts| >= 1
    requires forall i :: 0 <= i < |parts| ==> sep !in parts[i]
    ensures Split(Join(parts, sep), sep) == parts
    decreases |parts|
  {
    if |parts| == 1 {
      SplitNoSeparator(parts[0], sep);
    } else {
      SplitJoin(parts[1..], sep);
      SplitCons(parts[0], sep, Join(parts[1..], sep));
      assert [parts[0]] + parts[1..] == parts;
    }
  }

  /** Python's `str.isspace()` for one character: the ASCII and Unicode whitespace set. */
  predicate IsSpace(c: char) {
    var n := c as int;
    n == 0x20 || 0x09 <= n <= 0x0d || 0x1c <= n <= 0x1f || n == 0x85 || n == 0xa0
    || n == 0x1680 || 0x2000 <= n <= 0x200a || n == 0x2028 || n == 0x2029
    || n == 0x202f || n == 0x205f || n == 0x3000
  }

  /** The part of `s` left after dropping leading whitespace. */
  function StripStart(s: string): (r: string)
    ensures |r| <= |s| && r == s[|s| - |r|..]
    ensures forall i :: 0 <= i < |s| - |r| ==> IsSpace(s[i])
    ensures |r| > 0 ==> !IsSpace(r[0])
  {
    if |s| > 0 && IsSpace(s[0]) then StripStart(s[1..]) else s
  }

  /** The part of `s` left after dropping trailing whitespace. */
  function StripEnd(s: string): (r: string)
    ensures |r| <= |s| && r == s[..|r|]
    ensures forall i :: |r| <= i < |s| ==> IsSpace(s[i])
    ensures |r| > 0 ==> !IsSpace(r[|r| - 1])
  {
    if |s| > 0 && IsSpace(s[|s| - 1]) then StripEnd(s[..|s| - 1]) else s
  }

  /** Python's `s.strip()`. */
  function Strip(s: string): string {
    StripEnd(StripStart(s))
  }

  /** Strip keeps a contiguous middle piece of `s`, drops only whitespace around it, and
      leaves no whitespace at either end. */
  lemma StripShape(s: string) returns (i: nat, j: nat)
    ensures i <= j <= |s| && Strip(s) == s[i..j]
    ensures forall k :: 0 <= k < i ==> IsSpace(s[k])
    ensures forall k :: j <= k < |s| ==> IsSpace(s[k])
    ensures |Strip(s)| > 0 ==> !IsSpace(Strip(s)[0]) && !IsSpace(Strip(s)[|Strip(s)| - 1])
  {
    i, j := StripMiddle(s);
    StripTrimmed(s);
  }

  lemma StripMiddle(s: string) returns (i: nat, j: nat)
    ensures i <= j <= |s| && Strip(s) == s[i..j]
    ensures forall k :: 0 <= k < i ==> IsSpace(s[k])
    ensures forall k :: j <= k < |s| ==> IsSpace(s[k])
  {
    var t := StripStart(s);
    var u := StripEnd(t);
    i := |s| - |t|;
    j := i + |u|;
    SliceOfSuffix(s, t, u);
  }

  /** A prefix `u` of a suffix `t` of `s` is a slice of `s`, and what `t` has after `u`
      is what `s` has after that slice. */
  lemma SliceOfSuffix(s: string, t: string, u: string)
    requires |t| <= |s| && t == s[|s| - |t|..]
    requires |u| <= |t| && u == t[..|u|]
    requires forall k :: |u| <= k < |t| ==> IsSpace(t[k])
    ensures u == s[|s| - |t|..|s| - |t| + |u|]
    ensures forall k :: |s| - |t| + |u| <= k < |s| ==> IsSpace(s[k])
  {
    var i := |s| - |t|;
    forall k | i + |u| <= k < |s|
      ensures IsSpace(s[k])
    {
      assert s[k] == t[k - i];
    }
  }

  lemma StripTrimmed(s: string)
    ensures |Strip(s)| > 0 ==> !IsSpace(Strip(s)[0]) && !IsSpace(Strip(s)[|Strip(s)| - 1])
  {
    var t := StripStart(s);
    var u := StripEnd(t);
    assert Strip(s) == u;
    if |u| > 0 {
      assert |t| > 0 && !IsSpace(t[0]);
      assert u[0] == t[0];
      assert !IsSpace(u[|u| - 1]);
    }
  }

  function Concat(words: seq<string>): string {
    if |words| == 0 then "" else words[0] + Concat(words[1..])
  }

  /** The characters of `s` that are not whitespace, in order. */
  function NonSpace(s: string): string {
    if |s| == 0 then "" else (if IsSpace(s[0]) then "" else [s[0]]) + NonSpace(s[1..])
  }

  /** Python's `s.split()` with no argument: maximal runs of non-whitespace characters. */
  function Words(s: string): (words: seq<string>)
    ensures forall k :: 0 <= k < |words| ==> |words[k]| > 0
    ensures forall k, c :: 0 <= k < |words| && c in words[k] ==> !IsSpace(c)
    ensures |s| > 0 && !IsSpace(s[0]) ==> |words| > 0 && words[0][0] == s[0]
  {
    if |s| == 0 then []
    else if IsSpace(s[0]) then Words(s[1..])
    else
      var rest := Words(s[1..]);
      if |s| > 1 && !IsSpace(s[1]) then
        var words := [[s[0]] + rest[0]] + rest[1..];
        assert words[1..] == rest[1..];
        words
      else
        var words := [[s[0]]] + rest;
        assert words[1..] == rest;
        words
  }

  /** The words of `s`, run together, are exactly its non-whitespace characters. */
  lemma {:induction false} WordsConcat(s: string)
    ensures Concat(Words(s)) == NonSpace(s)
    decreases |s|
  {
    if |s| > 0 {
      WordsConcat(s[1..]);
      var rest := Words(s[1..]);
      if !IsSpace(s[0]) && |s| > 1 && !IsSpace(s[1]) {
        var words := Words(s);
        assert words == [[s[0]] + rest[0]] + rest[1..];
        assert words[1..] == rest[1..];
        assert Concat(rest) == rest[0] + Concat(rest[1..]);
      } else if !IsSpace(s[0]) {
        assert Words(s)[1..] == rest;
      }
    }
  }

  function Pow10(n: nat): (r: nat)
    ensures r > 0
  {
    if n == 0 then 1 else 10 * Pow10(n - 1)
  }

  /** The value of the digits after a decimal point. */
  function Fraction(digits: string): real
    requires AllDigits(digits)
  {
    DigitsValue(digits) as real / Pow10(|digits|) as real
  }

  /** An unsigned decimal number: digits, optionally followed by `.` and more digits. */
  function ParseUnsigned(t: string): Option<real> {
    var parts := Split(t, '.');
    if |parts| == 1 && IsDigits(t) then Some(DigitsValue(t) as real)
    else if |parts| == 2 && IsDigits(parts[0]) && IsDigits(parts[1]) then
      Some(DigitsValue(parts[0]) as real + Fraction(parts[1]))
    else None
  }

  /** The decimal subset of Python's `float(t)`: an optional sign, then an unsigned decimal. */
  function ParseDecimal(t: string): Option<real> {
    if |t| > 0 && (t[0] == '-' || t[0] == '+') then
      match ParseUnsigned(t[1..])
      case None => None
      case Some(v) => Some(if t[0] == '-' then -v else v)
    else ParseUnsigned(t)
  }

  /** Every integer, written as `str()` writes it, reads back as that number. */
  lemma ParseDecimalInteger(n: int)
    ensures ParseDecimal(IntToString(n)) == Some(n as real)
  {
    var s := IntToString(n);
    if n < 0 {
      assert '.' !in s[1..];
      SplitNoSeparator(s[1..], '.');
    } else {
      assert '.' !in s;
      SplitNoSeparator(s, '.');
    }
  }

  /** A digit string, a point and a digit string read as integer part plus fraction. */
  lemma ParseDecimalFraction(a: string, b: string)
    requires IsDigits(a) && IsDigits(b)
    ensures ParseDecimal(a + "." + b)
         == Some(DigitsValue(a) as real + Fraction(b))
  {
    var s := a + ['.'] + b;
    assert '.' !in a && '.' !in b;
    SplitPair(a, '.', b);
    assert s[0] == a[0];
    assert a + "." + b == s;
  }

  /** A word followed by nothing or by whitespace comes out of `Words` whole. */
  lemma {:induction false} WordsCons(a: string, rest: string)
    requires |a| > 0 && forall c :: c in a ==> !IsSpace(c)
    requires |rest| == 0 || IsSpace(rest[0])
    ensures Words(a + rest) == [a] + Words(rest)
    decreases |a|
  {
    var s := a + rest;
    assert s[0] == a[0] && s[1..] == a[1..] + rest;
    assert !IsSpace(a[0]) by { assert a[0] in a; }
    if |a| > 1 {
      WordsCons(a[1..], rest);
      var r := Words(s[1..]);
      assert r == [a[1..]] + Words(rest);
      assert s[1] == a[1] && !IsSpace(a[1]) by { assert a[1] in a; }
      assert [a[0]] + a[1..] == a;
    } else {
      assert s[1..] == rest;
      assert [a[0]] == a;
      if |s| > 1 {
        assert s[1] == rest[0];
      }
    }
  }

  /** Two whitespace-free words with one space between them split back into those words. */
  lemma WordsOfTwo(a: string, b: string)
    requires |a| > 0 && forall c :: c in a ==> !IsSpace(c)
    requires |b| > 0 && forall c :: c in b ==> !IsSpace(c)
    ensures Words(a + " " + b) == [a, b]
  {
    WordsCons(a, " " + b);
    assert (" " + b)[1..] == b;
    WordsCons(b, "");
    assert b + "" == b;
    assert a + " " + b == a + (" " + b);
  }

  /** Leading whitespace contributes no word. */
  lemma {:induction false} WordsSkipSpace(w: string, rest: string)
    requires forall c :: c in w ==> IsSpace(c)
    ensures Words(w + rest) == Words(rest)
    decreases |w|
  {
    if |w| > 0 {
      assert IsSpace(w[0]) by { assert w[0] in w; }
      assert (w + rest)[0] == w[0] && (w + rest)[1..] == w[1..] + rest;
      assert forall c :: c in w[1..] ==> c in w;
      WordsSkipSpace(w[1..], rest);
    } else {
      assert w + rest == rest;
    }
  }

  /** The text `gaps[0] + words[0] + gaps[1] + ... + words[n-1] + gaps[n]`. */
  function Interleave(gaps: seq<string>, words: seq<string>): (s: string)
    requires |gaps| == |words| + 1
    decreases |words|
  {
    if |words| == 0 then gaps[0]
    else gaps[0] + (words[0] + Interleave(gaps[1..], words[1..]))
  }

  /** Words laid out between whitespace gaps, with every inner gap non-empty, are exactly
      what `split()` gives back: each word is a maximal run of non-whitespace. */
  lemma {:induction false} WordsOfLayout(gaps: seq<string>, words: seq<string>)
    requires |gaps| == |words| + 1
    requires forall k, c :: 0 <= k < |gaps| && c in gaps[k] ==> IsSpace(c)
    requires forall k :: 0 < k < |words| ==> |gaps[k]| > 0
    requires forall k :: 0 <= k < |words| ==> |words[k]| > 0
    requires forall k, c :: 0 <= k < |words| && c in words[k] ==> !IsSpace(c)
    ensures Words(Interleave(gaps, words)) == words
    decreases |words|
  {
    if |words| == 0 {
      WordsSkipSpace(gaps[0], "");
      assert gaps[0] + "" == gaps[0];
    } else {
      var rest := Interleave(gaps[1..], words[1..]);
      WordsOfLayout(gaps[1..], words[1..]);
      assert |rest| == 0 || IsSpace(rest[0]) by {
        if |words| > 1 {
          assert rest == gaps[1] + (words[1] + Interleave(gaps[2..], words[2..]));
          assert rest[0] == gaps[1][0] && gaps[1][0] in gaps[1];
        } else {
          assert rest == gaps[1];
          if |rest| > 0 { assert rest[0] in gaps[1]; }
        }
      }
      assert forall c :: c in words[0] ==> !IsSpace(c);
      WordsCons(words[0], rest);
      assert forall c :: c in gaps[0] ==> IsSpace(c);
      WordsSkipSpace(gaps[0], words[0] + rest);
      assert [words[0]] + words[1..] == words;
    }
  }

  /** Text without whitespace at either end is left alone by `Strip`. */
  lemma StripUnpadded(s: string)
    requires |s| > 0 && !IsSpace(s[0]) && !IsSpace(s[|s| - 1])
    ensures Strip(s) == s
  {
  }

  /** The decimal rendering of a number holds no whitespace and starts and ends with a
      character that is not whitespace. */
  lemma IntToStringUnspaced(n: int)
    ensures forall c :: c in IntToString(n) ==> !IsSpace(c)
  {
    var s := IntToString(n);
    forall c | c in s
      ensures !IsSpace(c)
    {
      var i :| 0 <= i < |s| && s[i] == c;
      if n < 0 && i > 0 {
        assert s[1..][i - 1] == c;
      }
    }
  }
}

=== FILE: time_of_day.dfy ===
/** The notification time of day: an hour and a minute, written as `"HH:MM"`. */
module TimeOfDay {
  import opened Common
  import opened Text

  type Hour = h: int | 0 <= h < 24
  type Minute = m: int | 0 <= m < 60

  /** Python's `datetime.time` reduced to the hour and minute the bot uses; the range
      checks `time(hour, minute)` performs are the two subset types. */
  datatype Time = Time(hour: Hour, minute: Minute)

  /** `t.strftime("%H:%M")`: five characters, two zero-padded digit pairs around a colon. */
  function Format(t: Time): (s: string)
    ensures |s| == 5 && s[2] == ':'
    ensures IsDigits(s[..2]) && DigitsValue(s[..2]) == t.hour
    ensures IsDigits(s[3..]) && DigitsValue(s[3..]) == t.minute
  {
    var h, m := Pad2(t.hour), Pad2(t.minute);
    assert (h + ":" + m)[..2] == h && (h + ":" + m)[3..] == m;
    h + ":" + m
  }

  /** `hour, minute = map(int, s.split(":"))` followed by `time(hour, minute)`: `None`
      wherever Python raises `ValueError` (not two pieces, a piece that is not a
      number, an hour outside 0..23 or a minute outside 0..59). */
  function Parse(s: string): Option<Time> {
    var parts := Split(s, ':');
    if |parts| == 2 && IsDigits(parts[0]) && IsDigits(parts[1])
       && DigitsValue(parts[0]) < 24 && DigitsValue(parts[1]) < 60
    then Some(Time(DigitsValue(parts[0]), DigitsValue(parts[1])))
    else None
  }

  /** Accepted text holds only digits and a colon, and starts and ends with a digit. */
  lemma ParseShape(s: string)
    requires Parse(s).Some?
    ensures 3 <= |s| && IsDigit(s[0]) && IsDigit(s[|s| - 1])
    ensures DigitsAndColons(s)
  {
    var parts := Split(s, ':');
    assert s == parts[0] + [':'] + Join(parts[1..], ':');
    DigitsAroundColon(parts[0], parts[1]);
  }

  /** Every character is a digit or a colon. */
  predicate DigitsAndColons(s: string) {
    forall i :: 0 <= i < |s| ==> s[i] == ':' || IsDigit(s[i])
  }

  /** Two digit runs around a colon: only digits and the colon, with a digit at each end. */
  lemma DigitsAroundColon(a: string, b: string)
    requires IsDigits(a) && IsDigits(b)
    ensures var s := a + [':'] + b;
      && 3 <= |s| && IsDigit(s[0]) && IsDigit(s[|s| - 1])
      && DigitsAndColons(s)
  {
    var s := a + [':'] + b;
    forall i | 0 <= i < |s|
      ensures s[i] == ':' || IsDigit(s[i])
    {
      if i < |a| {
        assert s[i] == a[i];
      } else if i > |a| {
        assert s[i] == b[i - |a| - 1];
      }
    }
    assert s[|s| - 1] == b[|b| - 1];
  }

  /** Two digit strings around one colon parse exactly when both values are in range. */
  lemma ParseAccepts(a: string, b: string)
    requires IsDigits(a) && IsDigits(b)
    ensures Parse(a + ":" + b)
         == if DigitsValue(a) < 24 && DigitsValue(b) < 60
            then Some(Time(DigitsValue(a), DigitsValue(b))) else None
  {
    assert ':' !in a && ':' !in b;
    SplitPair(a, ':', b);
    assert a + ":" + b == a + [':'] + b;
  }

  /** Whatever `Parse` accepts is two digit strings around one colon, read as hour and minute. */
  lemma ParseSound(s: string) returns (a: string, b: string)
    requires Parse(s).Some?
    ensures s == a + ":" + b && IsDigits(a) && IsDigits(b)
    ensures DigitsValue(a) < 24 && DigitsValue(b) < 60
    ensures Parse(s).value == Time(DigitsValue(a), DigitsValue(b))
  {
    var parts := Split(s, ':');
    a, b := parts[0], parts[1];
    assert Join(parts, ':') == a + [':'] + Join(parts[1..], ':');
  }

  /** Formatting then parsing gives back the same time, for every hour and minute. */
  lemma ParseFormat(t: Time)
    ensures Parse(Format(t)) == Some(t)
  {
    var s := Format(t);
    assert s == s[..2] + ":" + s[3..];
    ParseAccepts(s[..2], s[3..]);
  }

  lemma TwoDigitsValue(x: string)
    requires |x| == 2 && IsDigits(x)
    ensures DigitsValue(x) == 10 * DigitValue(x[0]) + DigitValue(x[1])
  {
    assert x[..1][..0] == [];
    assert DigitsValue(x[..1]) == DigitValue(x[0]);
  }

  lemma Pad2OfDigits(x: string)
    requires |x| == 2 && IsDigits(x)
    ensures DigitsValue(x) < 100 && Pad2(DigitsValue(x)) == x
  {
    TwoDigitsValue(x);
    var p := Pad2(DigitsValue(x));
    TwoDigitsValue(p);
  }

  /** A canonical `"HH:MM"` string in range parses, and formatting the result gives the
      same string back. */
  lemma FormatParseCanonical(s: string)
    requires |s| == 5 && s[2] == ':' && IsDigits(s[..2]) && IsDigits(s[3..])
    requires DigitsValue(s[..2]) < 24 && DigitsValue(s[3..]) < 60
    ensures Parse(s).Some? && Format(Parse(s).value) == s
  {
    assert s == s[..2] + ":" + s[3..];
    ParseAccepts(s[..2], s[3..]);
    Pad2OfDigits(s[..2]);
    Pad2OfDigits(s[3..]);
  }

  /** Out-of-range hours and minutes are refused. */
  lemma ParseRejectsOutOfRange()
    ensures Parse("25:00") == None
    ensures Parse("12:60") == None
  {
    ParseAccepts("25", "00");
    TwoDigitsValue("25");
    assert "25" + ":" + "00" == "25:00";
    ParseAccepts("12", "60");
    TwoDigitsValue("60");
    assert "12" + ":" + "60" == "12:60";
  }

  /** Text that is not two numbers around one colon is refused. */
  lemma ParseRejectsMalformed()
    ensures Parse("abc") == None
    ensures Parse("") == None
    ensures Parse("08:00:00") == None
  {
    SplitNoSeparator("abc", ':');
    SplitNoSeparator("", ':');
    ThreePiecesRefused("08", "00", "00");
    assert "08" + ":" + "00" + ":" + "00" == "08:00:00";
  }

  lemma ThreePiecesRefused(a: string, b: string, c: string)
    requires ':' !in a && ':' !in b && ':' !in c
    ensures Parse(a + ":" + b + ":" + c) == None
  {
    SplitCons(a, ':', b + ":" + c);
    SplitPair(b, ':', c);
    assert a + ":" + b + ":" + c == a + [':'] + (b + [':'] + c);
  }
}

=== FILE: user_preferences.dfy ===
/** The per-user preference record, and its conversion to and from the dictionary
    that the store keeps (and writes out as JSON). */
module UserPreferences {
  import opened Common
  import opened Text
  import opened TimeOfDay

  /** A value of the stored dictionary: the JSON shapes the record's fields use, and
      `Other` for any other JSON value (a float where an integer belongs, a nested object). */
  datatype Value = Null | Int(i: int) | Str(s: string) | Bool(b: bool) | Pair(lo: real, hi: real) | Other

  type Dict = map<string, Value>

  /** The record: every field but `userId` has a default. */
  datatype Prefs = Prefs(
    userId: int,
    location: Option<string>,
    language: string,
    temperatureUnit: string,
    notificationTime: Option<Time>,
    tempAlertThresholds: Option<(real, real)>,
    dailyForecast: bool)

  const UserIdKey := "user_id"
  const LocationKey := "location"
  const LanguageKey := "language"
  const UnitKey := "temperature_unit"
  const TimeKey := "notification_time"
  const ThresholdsKey := "temp_alert_thresholds"
  const DailyKey := "daily_forecast"

  /** The seven keys a serialised record carries. */
  const FieldKeys: set<string> :=
    {UserIdKey, LocationKey, LanguageKey, UnitKey, TimeKey, ThresholdsKey, DailyKey}

  /** Python truthiness of `location`: set, and not the empty string. */
  predicate HasLocation(p: Prefs) {
    p.location.Some? && p.location.value != ""
  }

  /** `UserPreferences(user_id=uid)`: everything else at its declared default. */
  function Default(uid: int): Prefs {
    Prefs(uid, None, "es", "C", None, None, false)
  }

  function OptionalString(o: Option<string>): Value {
    match o
    case None => Null
    case Some(s) => Str(s)
  }

  function OptionalPair(o: Option<(real, real)>): Value {
    match o
    case None => Null
    case Some(pair) => Pair(pair.0, pair.1)
  }

  /** `to_dict`: exactly the seven keys; the time becomes `"HH:MM"` (or null), every
      other field is copied as it is. */
  function ToDict(p: Prefs): (d: Dict)
    ensures d.Keys == FieldKeys
    ensures d[TimeKey] == Null <==> p.notificationTime.None?
    ensures p.notificationTime.Some? ==> d[TimeKey].Str?
    ensures p.notificationTime.Some? ==>
              var t, text := p.notificationTime.value, d[TimeKey].s;
              && |text| == 5 && text[2] == ':'
              && IsDigits(text[..2]) && DigitsValue(text[..2]) == t.hour
              && IsDigits(text[3..]) && DigitsValue(text[3..]) == t.minute
    ensures d[UserIdKey] == Int(p.userId) && d[DailyKey] == Bool(p.dailyForecast)
    ensures d[LanguageKey] == Str(p.language) && d[UnitKey] == Str(p.temperatureUnit)
    ensures d[LocationKey] == OptionalString(p.location)
    ensures d[ThresholdsKey] == OptionalPair(p.tempAlertThresholds)
  {
    var time := (match p.notificationTime
                 case None => Null
                 case Some(t) => Str(Format(t)));
    map[UserIdKey := Int(p.userId),
        LocationKey := OptionalString(p.location),
        LanguageKey := Str(p.language),
        UnitKey := Str(p.temperatureUnit),
        TimeKey := time,
        ThresholdsKey := OptionalPair(p.tempAlertThresholds),
        DailyKey := Bool(p.dailyForecast)]
  }

  /** Why reading a record raised. */
  datatype DecodeError =
    | Missing(key: string)     // a required field is absent
    | WrongType(key: string)   // a field holds a value of the wrong JSON shape
    | BadTime(text: string)    // the time text is not two integers forming a valid time

  function Lookup(d: Dict, key: string): Option<Value> {
    if key in d then Some(d[key]) else None
  }

  /** The time step of `from_dict`: a non-empty string is split on `:` and must form a
      valid time (or the call raises); a missing or null value stays `None`. Any other
      value raises, either at `.split` or in the record's own validation. */
  function DecodeTime(v: Option<Value>): Result<Option<Time>, DecodeError> {
    match v
    case None => Ok(None)
    case Some(Null) => Ok(None)
    case Some(Str(s)) =>
      if s == "" then Err(WrongType(TimeKey))
      else if Parse(s).Some? then Ok(Parse(s))
      else Err(BadTime(s))
    case Some(_) => Err(WrongType(TimeKey))
  }

  function DecodeUserId(v: Option<Value>): Result<int, DecodeError> {
    match v
    case None => Err(Missing(UserIdKey))
    case Some(Int(i)) => Ok(i)
    case Some(_) => Err(WrongType(UserIdKey))
  }

  function DecodeOptionalString(key: string, v: Option<Value>): Result<Option<string>, DecodeError> {
    match v
    case None => Ok(None)
    case Some(Null) => Ok(None)
    case Some(Str(s)) => Ok(Some(s))
    case Some(_) => Err(WrongType(key))
  }

  function DecodeString(key: string, v: Option<Value>, default: string): Result<string, DecodeError> {
    match v
    case None => Ok(default)
    case Some(Str(s)) => Ok(s)
    case Some(_) => Err(WrongType(key))
  }

  function DecodeOptionalPair(v: Option<Value>): Result<Option<(real, real)>, DecodeError> {
    match v
    case None => Ok(None)
    case Some(Null) => Ok(None)
    case Some(Pair(lo, hi)) => Ok(Some((lo, hi)))
    case Some(_) => Err(WrongType(ThresholdsKey))
  }

  function DecodeBool(v: Option<Value>): Result<bool, DecodeError> {
    match v
    case None => Ok(false)
    case Some(Bool(b)) => Ok(b)
    case Some(_) => Err(WrongType(DailyKey))
  }

  /** The dictionaries `from_dict` accepts: an integer user id, and every other key it
      declares either absent or of its field's shape, with a time text that parses. */
  predicate Readable(d: Dict) {
    && UserIdKey in d && d[UserIdKey].Int?
    && (LocationKey in d ==> d[LocationKey].Null? || d[LocationKey].Str?)
    && (LanguageKey in d ==> d[LanguageKey].Str?)
    && (UnitKey in d ==> d[UnitKey].Str?)
    && (TimeKey in d ==> d[TimeKey].Null? || (d[TimeKey].Str? && Parse(d[TimeKey].s).Some?))
    && (ThresholdsKey in d ==> d[ThresholdsKey].Null? || d[ThresholdsKey].Pair?)
    && (DailyKey in d ==> d[DailyKey].Bool?)
  }

  /** `from_dict`: convert the time text, then build the record from the keys it
      declares (defaults for absent ones, any other key ignored). */
  function FromDict(d: Dict): (r: Result<Prefs, DecodeError>)
    ensures r.Ok? <==> Readable(d)
    ensures r.Ok? ==> UserIdKey in d && d[UserIdKey] == Int(r.value.userId)
    ensures r.Ok? ==>
              r.value.location
              == (if LocationKey in d && d[LocationKey].Str? then Some(d[LocationKey].s) else None)
    ensures r.Ok? ==> r.value.language == (if LanguageKey in d then d[LanguageKey].s else "es")
    ensures r.Ok? ==> r.value.temperatureUnit == (if UnitKey in d then d[UnitKey].s else "C")
    ensures r.Ok? ==>
              r.value.tempAlertThresholds
              == (if ThresholdsKey in d && d[ThresholdsKey].Pair?
                  then Some((d[ThresholdsKey].lo, d[ThresholdsKey].hi)) else None)
    ensures r.Ok? ==> r.value.dailyForecast == (DailyKey in d && d[DailyKey].b)
    ensures r.Ok? && TimeKey in d && d[TimeKey].Str? ==> r.value.notificationTime == Parse(d[TimeKey].s)
    ensures r.Ok? && (TimeKey !in d || d[TimeKey] == Null) ==> r.value.notificationTime.None?
    ensures r.Ok? && r.value.notificationTime.Some? ==>
              TimeKey in d && d[TimeKey].Str? && Parse(d[TimeKey].s) == r.value.notificationTime
    ensures (TimeKey in d && d[TimeKey].Str? && d[TimeKey].s != "" && Parse(d[TimeKey].s).None?)
              ==> r.Err?
  {
    var time :- DecodeTime(Lookup(d, TimeKey));
    var uid :- DecodeUserId(Lookup(d, UserIdKey));
    var location :- DecodeOptionalString(LocationKey, Lookup(d, LocationKey));
    var language :- DecodeString(LanguageKey, Lookup(d, LanguageKey), "es");
    var unit :- DecodeString(UnitKey, Lookup(d, UnitKey), "C");
    var thresholds :- DecodeOptionalPair(Lookup(d, ThresholdsKey));
    var daily :- DecodeBool(Lookup(d, DailyKey));
    Ok(Prefs(uid, location, language, unit, time, thresholds, daily))
  }

  /** `from_dict(to_dict(p)) == p` for every record. */
  lemma RoundTrip(p: Prefs)
    ensures FromDict(ToDict(p)) == Ok(p)
  {
    var d := ToDict(p);
    if p.notificationTime.Some? {
      ParseFormat(p.notificationTime.value);
    }
    assert DecodeTime(Lookup(d, TimeKey)) == Ok(p.notificationTime);
    match p.location {
      case None =>
      case Some(_) =>
    }
    match p.tempAlertThresholds {
      case None =>
      case Some(_) =>
    }
  }

  /** A dictionary holding only the user id reads as a record with the declared defaults:
      no location, Spanish, Celsius, no time, no thresholds, no daily summary. */
  lemma DecodeOnlyUserId(uid: int)
    ensures FromDict(map[UserIdKey := Int(uid)]) == Ok(Default(uid))
    ensures var p := Default(uid);
            && p.location.None? && p.language == "es" && p.temperatureUnit == "C"
            && p.notificationTime.None? && p.tempAlertThresholds.None? && !p.dailyForecast
  {
    var d := map[UserIdKey := Int(uid)];
    assert forall k :: k in FieldKeys && k != UserIdKey ==> k !in d;
  }

  /** A key outside the seven is ignored when reading. */
  lemma ExtraKeyIgnored(d: Dict, k: string, v: Value)
    requires k !in FieldKeys
    ensures FromDict(d[k := v]) == FromDict(d)
  {
    assert forall f :: f in FieldKeys ==> Lookup(d[k := v], f) == Lookup(d, f);
  }

  /** A record without a user id cannot be read. */
  lemma MissingUserIdRaises(d: Dict)
    requires UserIdKey !in d
    ensures FromDict(d).Err?
  {
  }
}

=== FILE: weather_bot.dfy ===
/** The bot's handlers as one state machine: `/start`, button presses and free-text
    messages each take the whole state (store, jobs, sessions) to a new one and produce
    a reply. Replies stand for the screens the bot shows; their texts are not modelled. */
module WeatherBot {
  import opened Common
  import opened Text
  import opened TimeOfDay
  import opened UserPreferences
  import opened Storage
  import opened Scheduler
  import opened Session

  datatype State = State(store: Store, jobs: Jobs, sessions: map<int, Session>)

  /** What reaches the bot: `/start`, a button press with its callback data, or a text
      message. For a text message, `locationFound` is the weather service's verdict on
      the text as a location (the request it makes is not modelled). `Message` stands only
      for text the `TEXT & ~COMMAND` filter lets through: a text such as `/Madrid` never
      reaches `handle_message`, so it is not an event here and callers must not form one. */
  datatype Event =
    | Start(user: int)
    | Press(user: int, data: string)
    | Message(user: int, text: string, locationFound: bool)

  datatype Reply =
    | Welcome           // welcome text and main menu
    | UseMenu           // "please use the main menu"
    | Silent            // no reply at all
    | Menu              // a menu or help screen
    | Report            // the weather or forecast report (or the service's failure message)
    | AskLocation       // prompt for a city name
    | AskTime           // prompt for "HH:MM"
    | AskLimits         // prompt for "MIN MAX"
    | UnitChanged
    | LanguageChanged
    | SummaryToggled
    | NeedLocationFirst
    | AlertsDisabled
    | LocationSet
    | LocationNotFound
    | TimeSet
    | TimeInvalid
    | LimitsSet
    | LimitsInvalid
    | Apology           // the error handler's generic apology after an uncaught exception

  datatype Outcome = Outcome(state: State, reply: Reply)

  /** The user's `context.user_data`; empty until a flag is first written. */
  function SessionOf(st: State, uid: int): Session {
    if uid in st.sessions then st.sessions[uid] else map[]
  }

  function WithSession(st: State, uid: int, s: Session): State {
    st.(sessions := st.sessions[uid := s])
  }

  function RaiseFlag(st: State, uid: int, f: Flag): State {
    WithSession(st, uid, Raise(SessionOf(st, uid), f))
  }

  function LowerFlag(st: State, uid: int, f: Flag): State {
    WithSession(st, uid, Lower(SessionOf(st, uid), f))
  }

  function SaveRecord(st: State, p: Prefs): State {
    st.(store := Save(st.store, p))
  }

  /** `start`: create and save a default record for a user who has none. Afterwards a
      user whose record could be read has one; an unreadable record ends in the apology. */
  function OnStart(st: State, uid: int): (o: Outcome)
    ensures o.state.jobs == st.jobs && o.state.sessions == st.sessions
    ensures o.reply == Apology <==> Get(st.store, uid).Err?
    ensures o.reply == Apology ==> o.state == st
    ensures o.reply != Apology ==> Get(o.state.store, uid).Ok? && Get(o.state.store, uid).value.Some?
  {
    match Get(st.store, uid)
    case Err(_) => Outcome(st, Apology)
    case Ok(None) =>
      GetAfterSave(st.store, Default(uid));
      Outcome(SaveRecord(st, Default(uid)), Welcome)
    case Ok(Some(_)) => Outcome(st, Welcome)
  }

  /** The callback data a button carries, as `button_handler` tells them apart. */
  datatype Action =
    | Weather | Forecast | Settings | Alerts | MainMenu
    | ChangeLocation | ChangeUnit | SetUnit(unit: string)
    | DailyNotification | ChangeLanguage | SetLanguage(lang: string)
    | TempAlerts | DailySummary | DisableAlerts | Help
    | Unknown

  /** The `if`/`elif` chain of `button_handler`, in its order; for `unit_*` and `lang_*`
      the value is `data.split("_")[1]`. */
  function ParseAction(data: string): (a: Action)
    ensures a.SetUnit? ==> StartsWith(data, "unit_") && |Split(data, '_')| > 1 && a.unit == Split(data, '_')[1]
    ensures a.SetLanguage? ==> StartsWith(data, "lang_") && |Split(data, '_')| > 1 && a.lang == Split(data, '_')[1]
  {
    if data == "weather" then Weather
    else if data == "forecast" then Forecast
    else if data == "settings" then Settings
    else if data == "alerts" then Alerts
    else if data == "main_menu" then MainMenu
    else if data == "change_location" then ChangeLocation
    else if data == "change_unit" then ChangeUnit
    else if StartsWith(data, "unit_") then
      assert "unit" + ['_'] == "unit_";
      SplitAfterPrefix(data, "unit", '_');
      SetUnit(Split(data, '_')[1])
    else if data == "daily_notification" then DailyNotification
    else if data == "change_language" then ChangeLanguage
    else if StartsWith(data, "lang_") then
      assert "lang" + ['_'] == "lang_";
      SplitAfterPrefix(data, "lang", '_');
      SetLanguage(Split(data, '_')[1])
    else if data == "temp_alerts" then TempAlerts
    else if data == "daily_summary" then DailySummary
    else if data == "disable_alerts" then DisableAlerts
    else if data == "help" then Help
    else Unknown
  }

  /** `get_weather` / `get_forecast`: without a record or a location they fall back to
      `request_location`, which sets the location flag; otherwise they only report. */
  function WeatherOrAskLocation(st: State, uid: int, prefs: Option<Prefs>): (o: Outcome)
    ensures o.state.store == st.store && o.state.jobs == st.jobs
    ensures o.reply == Report <==> prefs.Some? && HasLocation(prefs.value)
    ensures o.reply != Report ==> o.reply == AskLocation
                                  && Pending(SessionOf(o.state, uid)) == Some(ExpectingLocation)
  {
    if prefs.Some? && HasLocation(prefs.value) then Outcome(st, Report)
    else Outcome(RaiseFlag(st, uid, ExpectingLocation), AskLocation)
  }

  /** `button_handler`: read the user's record, then act on the callback data. */
  function OnPress(st: State, uid: int, data: string): (o: Outcome)
    ensures o.state.jobs == st.jobs
    ensures Get(st.store, uid).Err? ==> o == Outcome(st, Apology)
    ensures Get(st.store, uid) == Ok(None) ==> o.state.store == st.store
  {
    match Get(st.store, uid)
    case Err(_) => Outcome(st, Apology)
    case Ok(prefs) => Perform(st, uid, prefs, ParseAction(data))
  }

  /** What one button does, given the record read for the user (if any). No button
      touches the jobs; only the four record buttons write, and only when there is a
      record to change. */
  function Perform(st: State, uid: int, prefs: Option<Prefs>, a: Action): (o: Outcome)
    ensures o.state.jobs == st.jobs
    ensures prefs.None? || !(a.SetUnit? || a.SetLanguage? || a.DailySummary? || a.DisableAlerts?)
            ==> o.state.store == st.store
  {
    match a
    case Weather => WeatherOrAskLocation(st, uid, prefs)
    case Forecast => WeatherOrAskLocation(st, uid, prefs)
    case Settings => Outcome(st, Menu)
    case Alerts => Outcome(st, Menu)
    case MainMenu => Outcome(st, Menu)
    case ChangeLocation => Outcome(RaiseFlag(st, uid, ExpectingLocation), AskLocation)
    case ChangeUnit => Outcome(st, Menu)
    case SetUnit(u) =>
      if prefs.None? then Outcome(st, Silent)
      else Outcome(SaveRecord(st, prefs.value.(temperatureUnit := u)), UnitChanged)
    case DailyNotification => Outcome(RaiseFlag(st, uid, ExpectingTime), AskTime)
    case ChangeLanguage => Outcome(st, Menu)
    case SetLanguage(l) =>
      if prefs.None? then Outcome(st, Silent)
      else Outcome(SaveRecord(st, prefs.value.(language := l)), LanguageChanged)
    case TempAlerts => Outcome(RaiseFlag(st, uid, ExpectingTempLimits), AskLimits)
    case DailySummary =>
      if prefs.None? || !HasLocation(prefs.value) then Outcome(st, NeedLocationFirst)
      else
        var p := prefs.value;
        Outcome(SaveRecord(st, p.(dailyForecast := !p.dailyForecast)), SummaryToggled)
    case DisableAlerts =>
      if prefs.None? then Outcome(st, AlertsDisabled)
      else
        var p := prefs.value;
        Outcome(SaveRecord(st, p.(tempAlertThresholds := None, dailyForecast := false)),
                AlertsDisabled)
    case Help => Outcome(st, Menu)
    case Unknown => Outcome(st, Silent)
  }

  /** `temp_min, temp_max = map(float, text.strip().split())` and the comparison
      `temp_min < temp_max`: `None` wherever the source raises `ValueError`. */
  function ParseLimits(text: string): (r: Option<(real, real)>)
    ensures r.Some? ==> r.value.0 < r.value.1
    ensures r.Some? ==> var words := Words(Strip(text));
              && |words| == 2
              && ParseDecimal(words[0]) == Some(r.value.0) && ParseDecimal(words[1]) == Some(r.value.1)
  {
    var words := Words(Strip(text));
    if |words| != 2 then None
    else
      match (ParseDecimal(words[0]), ParseDecimal(words[1]))
      case (Some(lo), Some(hi)) => if lo < hi then Some((lo, hi)) else None
      case _ => None
  }

  /** The location branch of `handle_message`. */
  function LocationAnswer(st: State, uid: int, prefs: Option<Prefs>, text: string, found: bool): (o: Outcome)
    ensures o.state.jobs == st.jobs
    ensures o.reply == LocationSet <==> found
    ensures !found || prefs.None? ==> o.state.store == st.store
    ensures found && prefs.Some? ==>
      Get(o.state.store, prefs.value.userId) == Ok(Some(prefs.value.(location := Some(Strip(text)))))
    ensures !Expecting(SessionOf(o.state, uid), ExpectingLocation)
  {
    var location := Strip(text);
    var st' := LowerFlag(st, uid, ExpectingLocation);
    if !found then Outcome(st', LocationNotFound)
    else if prefs.None? then Outcome(st', LocationSet)
    else
      GetAfterSave(st'.store, prefs.value.(location := Some(location)));
      Outcome(SaveRecord(st', prefs.value.(location := Some(location))), LocationSet)
  }

  /** The time branch of `handle_message`. Saving comes before scheduling, so a
      scheduling failure (an exception that is not a `ValueError`) leaves the new time
      saved, no new job, and the error handler's apology. */
  function TimeAnswer(lib: Library, st: State, uid: int, prefs: Option<Prefs>, text: string): (o: Outcome)
    ensures o.reply == TimeInvalid <==> Parse(Strip(text)).None?
    ensures o.reply == TimeInvalid ==> o.state.store == st.store && o.state.jobs == st.jobs
    ensures o.state.jobs != st.jobs ==> prefs.Some? && o.reply == TimeSet
    ensures o.reply == Apology <==> prefs.Some? && Parse(Strip(text)).Some?
                                    && lib.removeAbsentRaises && JobId(uid) !in st.jobs
    ensures o.reply == TimeSet && prefs.Some? ==>
      var t := Parse(Strip(text)).value;
      JobId(uid) in o.state.jobs && o.state.jobs[JobId(uid)] == Job(uid, t.hour, t.minute)
    ensures !Expecting(SessionOf(o.state, uid), ExpectingTime)
  {
    var st' := LowerFlag(st, uid, ExpectingTime);
    match Parse(Strip(text))
    case None => Outcome(st', TimeInvalid)
    case Some(t) =>
      if prefs.None? then Outcome(st', TimeSet)
      else
        var saved := SaveRecord(st', prefs.value.(notificationTime := Some(t)));
        match Schedule(lib, st.jobs, uid, t)
        case Ok(jobs) => Outcome(saved.(jobs := jobs), TimeSet)
        case Err(_) => Outcome(saved, Apology)
  }

  /** The temperature-limits branch of `handle_message`. Without a record the success
      reply reads the missing record's unit and raises, so the user gets the apology. */
  function LimitsAnswer(st: State, uid: int, prefs: Option<Prefs>, text: string): (o: Outcome)
    ensures o.state.jobs == st.jobs
    ensures o.reply == LimitsInvalid <==> ParseLimits(text).None?
    ensures o.reply == Apology <==> ParseLimits(text).Some? && prefs.None?
    ensures o.reply != LimitsSet ==> o.state.store == st.store
    ensures o.reply == LimitsSet ==>
      Get(o.state.store, prefs.value.userId) == Ok(Some(prefs.value.(tempAlertThresholds := ParseLimits(text))))
    ensures !Expecting(SessionOf(o.state, uid), ExpectingTempLimits)
  {
    var st' := LowerFlag(st, uid, ExpectingTempLimits);
    match ParseLimits(text)
    case None => Outcome(st', LimitsInvalid)
    case Some(limits) =>
      if prefs.None? then Outcome(st', Apology)
      else
        GetAfterSave(st'.store, prefs.value.(tempAlertThresholds := Some(limits)));
        Outcome(SaveRecord(st', prefs.value.(tempAlertThresholds := Some(limits))), LimitsSet)
  }

  /** `handle_message`: with an empty session only the menu prompt; otherwise read the
      record and serve the first flag that is on, clearing only that flag. */
  function OnMessage(lib: Library, st: State, uid: int, text: string, found: bool): (o: Outcome)
    ensures |SessionOf(st, uid)| == 0 ==> o == Outcome(st, UseMenu)
    ensures |SessionOf(st, uid)| > 0 && Get(st.store, uid).Err? ==> o == Outcome(st, Apology)
    ensures Pending(SessionOf(st, uid)).None? ==> o.state == st
    ensures o.state.jobs != st.jobs ==> Pending(SessionOf(st, uid)) == Some(ExpectingTime)
  {
    var session := SessionOf(st, uid);
    if |session| == 0 then Outcome(st, UseMenu)
    else
      match Get(st.store, uid)
      case Err(_) => Outcome(st, Apology)
      case Ok(prefs) =>
        match Pending(session)
        case None => Outcome(st, Silent)
        case Some(ExpectingLocation) => LocationAnswer(st, uid, prefs, text, found)
        case Some(ExpectingTime) => TimeAnswer(lib, st, uid, prefs, text)
        case Some(ExpectingTempLimits) => LimitsAnswer(st, uid, prefs, text)
  }

  /** One event handled to completion. */
  function Step(lib: Library, st: State, ev: Event): (o: Outcome)
    ensures o.state.jobs != st.jobs ==> ev.Message? && o.reply == TimeSet
    ensures o.state.jobs.Keys <= st.jobs.Keys + {JobId(ev.user)}
  {
    match ev
    case Start(uid) => OnStart(st, uid)
    case Press(uid, data) => OnPress(st, uid, data)
    case Message(uid, text, found) => OnMessage(lib, st, uid, text, found)
  }

  /** The state the bot starts in: the store as loaded, no jobs, no sessions. */
  function Init(disk: Disk): State {
    State(Load(disk), map[], map[])
  }

  /** A press runs the action its callback data selects, on the record read for the user. */
  lemma PressPerforms(lib: Library, st: State, uid: int, data: string, prefs: Option<Prefs>)
    requires Get(st.store, uid) == Ok(prefs)
    ensures Step(lib, st, Press(uid, data)) == Perform(st, uid, prefs, ParseAction(data))
  {
  }

  /** A text message with a flag on goes to the answer for the flag that is served. */
  lemma MessageAnswers(lib: Library, st: State, uid: int, text: string, found: bool, prefs: Option<Prefs>)
    requires Get(st.store, uid) == Ok(prefs)
    requires Pending(SessionOf(st, uid)).Some?
    ensures Step(lib, st, Message(uid, text, found))
         == match Pending(SessionOf(st, uid)).value
            case ExpectingLocation => LocationAnswer(st, uid, prefs, text, found)
            case ExpectingTime => TimeAnswer(lib, st, uid, prefs, text)
            case ExpectingTempLimits => LimitsAnswer(st, uid, prefs, text)
  {
    ExpectingNonEmpty(SessionOf(st, uid), Pending(SessionOf(st, uid)).value);
  }
}
